=== FILE: README.md ===
# Obooking checkout and cart, modelled in Dafny

Obooking is a small event-ticketing web application. Users browse events,
collect tickets in a cart kept in their session, and check out into a booking.
An administrator can create events with ticket types.

This project models the parts of the application that carry invariants:

- **The checkout transaction** (`apicheckout.php`). It validates the payment
  form and rejects an empty cart. It computes subtotal plus service fee and
  inserts the booking. It then re-checks and decrements each cart line's
  ticket type in cart order. At the end it either commits and clears the
  cart, or rolls everything back.
- **The session cart** (`apicart.php`). GET reads the cart. POST adds a ticket
  type, or merges it into the existing line for that ticket type, after an
  advisory availability check. DELETE filters a ticket type out of the cart.
- **The browser logic** (`script.js`). It covers:
  - the `ShoppingCart` add, remove, update and clear operations;
  - subtotal, total and badge count;
  - pagination arithmetic;
  - the search/location/date filter;
  - the four sort orders;
  - the admin delete.
- **The events endpoint** (`apievents.php`). GET computes page and offset and
  builds the WHERE clause and its parameter list. POST is the admin-only event
  creation, with required-field validation and ticket-type insertion.

The database and the session are plain values:

- the `quantity_available` column is a `map<int, int>`;
- the `bookings`, `booked_tickets`, `events` and `ticket_types` tables are
  sequences of rows;
- the cart is a sequence of lines.

Every endpoint is a pure function from request and state to a response and
the new state. The transaction's rollback becomes a postcondition: on `Err`,
the returned cart and database equal the ones passed in. Money is in integer
cents, so `SERVICE_FEE` (2.50) is `250`. Dates are integer keys.

Modules:

- `Results`: `Option` and `Result`.
- `Fields`: JSON payloads, PHP's `empty()` on strings, and the
  first-missing-field walk.
- `Store`: cart lines, inventory, booking rows, and the sums over them.
- `CheckoutTransaction`: the checkout POST.
- `CheckoutLaws`: properties relating several checkouts, and worked examples.
- `SessionCart`: `apicart.php`.
- `Findings`: the negative-quantity discrepancy below.
- `ClientCart`, `Listing`, `EventSort`: `script.js`.
- `SqlText`, `EventsApi`: `apievents.php`.

Three points of the code are easy to misread:

- A failed reservation is reported by the cart line's `ticket_name`
  (apicheckout.php:86), not by its ticket-type id.
- Adding to the cart never checks that the quantity is positive
  (apicart.php:32, 54). `SessionCart.AddAsWritten` and
  `SessionCart.HandleAsWritten` keep that behaviour. `SessionCart.AddToCart`
  and `SessionCart.Handle` are the corrected versions; see Findings.
- Storage errors surface as caught exceptions (apicart.php:128-134). The
  model's storage never fails, as stated under Left out.

## Model

| member | source | states |
|---|---|---|
| Fields.FirstMissing | apicheckout.php:24-32 | Reports `None` exactly when no required field is blank. Otherwise it names a blank field, and every field before it in the fixed order is present. |
| CheckoutTransaction.Reserve | apicheckout.php:75-111 | If the per-line loop succeeds, every line's ticket type exists and the inventory keeps its keys. Each ticket type drops by the total quantity the cart asks for it. |
| CheckoutTransaction.ReserveFirstFailure | apicheckout.php:77-87 | The loop succeeds exactly when every line fits against the availability left by the earlier lines. On failure it names the first line that does not fit. |
| CheckoutTransaction.ReserveNeverOverdraws | apicheckout.php:85-111 | Each decrement is guarded by the current, already-decremented value. So no ticket type the cart names ends below zero, whatever the starting inventory. |
| CheckoutTransaction.Checkout | apicheckout.php:8-130 | Every failure leaves cart and tables unchanged. A missing user, then the first blank form field in order, then an empty cart are reported before any work. The booking commits exactly when every line fits, and a rejection names the first failing line. On commit the cart is cleared and one booking is appended: the next id, the first line's event, subtotal + fee, "paid", and the form's payment method. One booked-ticket row per line follows, in cart order, at the cart's price. Inventory drops by demand and stays non-negative for every named type. |
| Store.SubtotalAppend | apicheckout.php:42-45 | The subtotal of a concatenation is the sum of the parts' subtotals. |
| CheckoutLaws.TicketRowsQuantity | apicheckout.php:89-100 | The booked-ticket rows record, per ticket type, exactly the quantity the cart asks for. |
| CheckoutLaws.ReserveIffEnoughStock | apicheckout.php:75-111 | For positive quantities, the line-by-line check succeeds exactly when each named ticket type's stock covers the cart's total demand for it. |
| CheckoutLaws.CheckoutCommitsIffEnoughStock | apicheckout.php:19-118 | For positive quantities, checkout commits exactly when a user is logged in, no field is blank, the cart is non-empty and the stock covers total demand. |
| CheckoutLaws.CheckoutConserves | apicheckout.php:89-111 | For every ticket type, availability plus everything booked against it is the same after any checkout. So after any sequence of checkouts, availability = initial - booked. |
| CheckoutLaws.CheckoutKeepsStockNonNegative | apicheckout.php:85-111 | No checkout, committed or not, takes any availability below zero. |
| CheckoutLaws.CheckoutNeverRaisesStock | apicheckout.php:102-111 | With positive quantities, a checkout never raises any ticket type's availability. |
| CheckoutLaws.FailureIsRepeatable | apicheckout.php:125-129 | Retrying a rejected checkout gives the same rejection and still changes nothing. |
| CheckoutLaws.SuccessfulCheckoutExample | apicheckout.php:41-118 | Two 45.00 tickets of a type with 200 left: booking total 92.50, one row (7, 2, 45.00), 198 left, cart cleared. |
| CheckoutLaws.RejectedCheckoutExample | apicheckout.php:85-86 | The same cart with one ticket left is rejected. The line's name is reported, one ticket is still left, there is no booking and the cart is kept. |
| SessionCart.FindLine | apicart.php:66-80 | Finds the first line with the ticket type, or reports that no line has it. |
| SessionCart.AddAsWritten | apicart.php:27-98 | Each error holds exactly under the code's conditions, checked in order: missing fields, unknown ticket type or wrong event, request above availability, merged total above availability. A merge grows only the matching line. Otherwise one line is appended, with name and price from the ticket-type row. Per-type demand grows by the quantity, and one-line-per-type is preserved. |
| SessionCart.AddToCart | apicart.php:32-58 | The corrected add: a negative quantity is refused; otherwise it behaves exactly like AddAsWritten. A successful add has a positive quantity and keeps every line positive. |
| SessionCart.Without | apicart.php:110-115 | The filtered cart has no line of the ticket type. It holds exactly the other lines, and is no longer. |
| SessionCart.WithoutAppend | apicart.php:111-114 | Filtering a concatenation concatenates the filtered parts, so survivors keep their order. |
| SessionCart.WithoutAbsent | apicart.php:110-115 | Removing a ticket type no line has is a no-op. |
| SessionCart.WithoutDemand | apicart.php:111-113 | After removal the ticket type's demand is 0, and every other type's demand is unchanged. |
| SessionCart.WithoutKeepsUnique | apicart.php:110-115 | Removal preserves one line per ticket type. |
| SessionCart.WithoutKeepsPositive | apicart.php:110-115 | Removal preserves positive quantities. |
| SessionCart.RemoveFromCart | apicart.php:100-122 | A blank id is refused. Otherwise the result is the cart without that ticket type's lines (`Without`), so its demand becomes 0 and other demands are unchanged. The cart invariants are kept. |
| SessionCart.HandleAsWritten | apicart.php:8-127 | The endpoint as written. Without a login nothing happens. GET returns the cart unchanged, and other methods are refused. POST answers exactly as the unchecked add (`AddAsWritten`), and DELETE exactly as `RemoveFromCart`. Errors leave the cart alone, and success returns the new cart. A DELETE empties its ticket type and keeps the others. One line per ticket type holds across every request; positive quantities do not (see Findings). |
| SessionCart.Handle | apicart.php:8-127 | The corrected endpoint, whose POST answers exactly as `AddToCart` and so refuses a negative quantity. DELETE answers exactly as `RemoveFromCart`. It keeps the same login, GET, error and method guarantees. One line per ticket type and positive quantities both hold across every request. |
| SessionCart.HandleAgreesWithAsWritten | apicart.php:27-58 | The corrected endpoint differs from the one as written exactly on a logged-in POST with all fields present and a negative quantity. |
| Findings.NegativeQuantityEntersCart | apicart.php:32-58 | As written, a POST of quantity -3 succeeds and leaves a line of -3 tickets in the session cart. |
| Findings.NegativeQuantityRaisesStock | apicheckout.php:85-111 | Checking that cart out raises availability from 1 to 4 and records a negative total. |
| Findings.NegativeMergeLeavesEmptyLine | apicart.php:67-76 | As written, merging -3 into a line of 3 tickets is accepted and leaves a line of 0 tickets. |
| Findings.CorrectedAddRefusesNegativeQuantity | apicart.php:32-58 | The corrected add and the corrected endpoint refuse the same request and leave the cart empty. |
| Findings.CorrectedCartNeverRaisesStock | apicheckout.php:85-111 | Start from a cart of positive quantities and apply any cart request. Checking out the result never raises availability. |
| ClientCart.SumsAppend | script.js:118-120 | The subtotal and the badge count of a concatenation are the sums of the parts' subtotals and counts. |
| ClientCart.SumsSplit | script.js:135 | Around any index, the badge count is the count before it, plus that item's quantity, plus the count after it; the subtotal splits the same way at quantity times price. |
| ClientCart.FindItem | script.js:83 | Finds the first item with the same event id and ticket type, or reports that none exists. |
| ClientCart.AddItem | script.js:82-97 | A match grows only that item's quantity; otherwise a new item is appended. The badge count grows by the quantity. The subtotal grows by quantity times the receiving item's price. |
| ClientCart.SpliceTarget | script.js:99-102 | `splice(index, 1)` deletes the item at an in-range index. A negative index from -length on counts from the end. A start below -length deletes the first item. Nothing is deleted at or past the end, or from an empty list. |
| ClientCart.RemoveItem | script.js:99-102 | Deletes exactly the item `SpliceTarget` picks and shifts later ones down. Count and subtotal drop by that item's share. An index at or past the end changes nothing. |
| ClientCart.UpdateQuantity | script.js:104-111 | A quantity of 0 or less removes the item. Otherwise only that item's quantity changes, and the badge count adjusts. An index with no item throws. |
| ClientCart.ClearCart | script.js:113-116 | The cleared cart is the empty list, the state the checkout button, the empty-cart message and the checkout guard test for. Its count, subtotal and total are 0. |
| ClientCart.AddThenRemoveRestores | script.js:82-102 | Removing a just-appended item gives back the original cart. |
| ClientCart.PositiveCartIsCharged | script.js:118-125 | A non-empty cart of positive quantities and prices costs at least its count. It is charged subtotal + fee. |
| Listing.Clamp | script.js:244 | `slice` normalises an index: one in [0, length] is kept, one past the end becomes length, a negative one counts from the end, and one below -length becomes 0. |
| Listing.PageWindow | script.js:244 | Page p ≥ 1 shows the events with index in [(p-1)·6, p·6), clipped to the list. |
| Listing.PageCount | script.js:278 | The page count is 0 exactly for an empty list. Otherwise it is the least count whose pages of 6 hold every event. |
| Listing.ShowsPagination | script.js:278-280 | Pagination controls are drawn exactly when there are more than 6 events. |
| Listing.AcceptedPageIsNonEmpty | script.js:299-306 | The click handler accepts a page exactly when it is a page from 1 on, differs from the current one, and shows at least one event. |
| Listing.EventIsOnItsPage | script.js:244 | Event i is shown on page i/6 + 1, at position i mod 6, and that page is a numbered one. |
| Listing.PagesTileTheList | script.js:244 | The pages concatenated in order give back the whole list. |
| Listing.Select | script.js:492-497 | The filter keeps exactly the events that satisfy the predicate. |
| Listing.SelectAppend | script.js:492-497 | Filtering preserves relative order. |
| Listing.SelectAll | script.js:492-497 | A predicate every event satisfies keeps the list unchanged. |
| Listing.Lower | script.js:488 | Lower-casing keeps the length and leaves no upper-case letter. Each upper-case letter becomes its lower-case partner and every other character is kept. Text with no upper-case letter is returned as it is, and only such text. |
| Listing.LowerIdempotent | script.js:493 | Lower-casing twice equals lower-casing once, so the already lower-cased search term is unchanged by a second fold. |
| Listing.Contains | script.js:493 | `includes` holds exactly when the needle occurs at some index. |
| Listing.FilterEvents | script.js:487-499 | The display is the `filter` of the events by the search callback, so order and duplicates are kept. It holds exactly the events whose lower-cased name or description contains the lower-cased term, and whose location and date match when set. Resets to page 1. |
| Listing.EmptyFilterKeepsAll | script.js:488-497 | An empty search with no location and no date keeps every event, in order. |
| Listing.FindEvent | script.js:608 | `findIndex` finds the first event with the id, or reports that none exists. |
| Listing.DeleteEvent | script.js:606-611 | An unknown id changes nothing. Otherwise the id's first occurrence is spliced out of the full list. The displayed list is its `filter` by `id !== eventId`: the events with other ids, in order. |
| EventSort.Insert | script.js:509-524 | Insertion adds exactly the new event. |
| EventSort.InsertMembers | script.js:509-524 | Every element after an insertion is the new event or an old one. |
| EventSort.BoundSurvivesInsert | script.js:509-524 | A key lower bound that holds of the event and the list holds after the insertion. |
| EventSort.InsertKeepsSorted | script.js:509-524 | Inserting into a sorted list keeps it sorted. |
| EventSort.InsertIsStable | script.js:509-524 | Among the events with one key, an insertion puts the new event first and keeps the others in order. |
| EventSort.InsertionSort | script.js:509-524 | The result is a permutation of the input, sorted by the criterion's key. It is stable: for every key, the events with that key appear in their input order. |
| EventSort.ParseCriterion | script.js:510-522 | A recognised criterion is the one whose name the string is. An unrecognised string is no criterion's name. |
| EventSort.ParseName | script.js:510-522 | Parsing a criterion's name gives back that criterion. |
| EventSort.SortBy | script.js:511-524 | Resets to page 1 and returns a permutation. It is ascending or descending by date or price as the criterion says. An unrecognised criterion keeps the order. Events with equal keys keep their relative order. |
| EventSort.SortEvents | script.js:509-524 | For the criteria string: page 1, a permutation, sorted by the named criterion, and the order kept for an unknown name. The sort is stable. |
| EventSort.SortEventsByName | script.js:511-522 | "date-asc" and "date-desc" order by date ascending and descending. "price-asc" and "price-desc" order by price the same way. |
| EventSort.SortAgainStaysSorted | script.js:509-524 | Sorting twice by the same name gives a permutation of the original that is sorted by the named criterion. |
| EventsApi.Offset | apievents.php:16 | The offset is (page-1)·per_page. It is non-negative for a non-negative page size, and 0 on page 1. |
| EventsApi.FiltersEmpty | apievents.php:19-44 | There are no conditions exactly when search, location, date and category are all empty. |
| EventsApi.SearchBindsFirst | apievents.php:22-27 | A set search term supplies the first two parameters, both `%term%`. |
| EventsApi.JoinPlaceholders | apievents.php:44 | Joining with a separator that has no `?` adds no placeholders. |
| EventsApi.FilterConditions | apievents.php:19-42 | The conditions are exactly those of the set filters, in the order search, location, date, category. |
| EventsApi.FilterParams | apievents.php:19-42 | The parameters are the search's, then the location, date and category values of the set filters, in that order. |
| EventsApi.FilterBindings | apievents.php:29-42 | A set location, date or category value is bound at the index equal to the number of placeholders in the conditions before it. |
| EventsApi.WhereFacts | apievents.php:19-44 | The WHERE clause of a query string is empty exactly when no filter is set. It has one placeholder per bound parameter. |
| EventsApi.FiltersBalanced | apievents.php:19-42 | The conditions' placeholders equal the number of parameters built. |
| EventsApi.WhereEmpty | apievents.php:44 | The WHERE clause is empty exactly when there are no conditions. |
| EventsApi.WherePlaceholders | apievents.php:44 | The WHERE clause has exactly the conditions' placeholders. |
| EventsApi.TotalPages | apievents.php:80 | For a positive page size, it is the least page count whose pages hold all rows (ceiling). For a negative one it is the ceiling of the negative quotient. |
| EventsApi.List | apievents.php:12-83 | A page size of 0 is an error (division by zero). Otherwise the page is at least 1 and per_page is the request's or 6. The offset is (page-1)·per_page, non-negative when per_page is positive. total_pages is `TotalPages` of the row count. WHERE is `WhereClause` of the filters' conditions, and it is empty exactly when no filter is set. Placeholders match the COUNT parameters, which are the filters' parameters. The SELECT gets those plus per_page and offset. |
| EventsApi.ListBindsSearchFirst | apievents.php:22-27 | In a listing with a search term, the first two bound values are `%term%`. |
| EventsApi.AllFiltersWhereClause | apievents.php:19-44 | With all four filters set, the clause is "WHERE" followed by the search, location, date and category conditions joined by " AND ". |
| EventsApi.TicketTypeRows | apievents.php:129-143 | One row per requested ticket type, in order, each tagged with the event id and carrying its name, price and quantity. |
| EventsApi.CreatedEventFields | apievents.php:113-124 | The created row carries the submitted description, category, location, venue and event_time. `image_path` defaults to the empty string. |
| EventsApi.CreateEvent | apievents.php:85-150 | A non-admin gets Unauthorized. Then the first blank required field is reported, in fixed order. Either way nothing is inserted. On success one event row is appended with the next id, then one ticket-type row per element of a non-empty array. Each row is tagged with that event id and takes the next ticket-type id in order, and the ticket-type counter advances by the number of rows. |
| SqlText.ConditionPlaceholders | apievents.php:23-41 | The search condition has two placeholders and each other condition has one. |

## Left out

- HTTP, JSON, PDO and sessions are not modelled. Each endpoint is a function
  of its decoded request and state, and status codes are error variants.
  Only `apicart.php` has its method dispatch modelled; the other endpoints
  model only the branches named above.
- Row locking (`SELECT … FOR UPDATE`) and concurrent checkouts are not
  modelled: a checkout is one sequential step.
- Storage failures (`PDOException`, a failing commit) are not modelled; the
  model's storage always succeeds. Auto-increment ids consumed by a
  rolled-back insert are not modelled either.
- Money is integer cents, not floating point. `toFixed` formatting is left
  out.
- `NOW()` for the booking date is left out.
- An unset session cart and an empty one are the same value. A non-array
  cart cannot occur.
- PHP loose typing is not modelled: ids and quantities are integers, and
  `(int)` casts of query strings are taken as already applied. `empty()` is
  "absent, zero, empty string or "0"".
- Catalogue rows already carry their event's title. A ticket type whose
  event row is missing, which the JOIN would drop, is not modelled.
- The listing's SQL execution is not modelled. The row count is a
  parameter, and the selected rows and their ticket types are outside the
  model. The database's refusal of a negative LIMIT is not modelled.
- The database's refusal of a negative OFFSET, and PHP's `ceil` of a float
  quotient, are not modelled: `TotalPages` is exact integer arithmetic.
- Event creation runs without a transaction. A failure between its inserts
  is not modelled, and neither are ticket-type elements with missing keys.
- DOM rendering is left out: `renderCart`, `renderCheckoutSummary`, the
  card markup of `displayEvents`, `loadEventDetails`, admin and dashboard
  tabs, the add-to-cart button handler and the stub checkout form handler.
  The upcoming-events sidebar needs the current date and is left out too.
- `localStorage` persistence of the browser cart is not modelled. A `NaN`
  from `parseInt` in `updateQuantity` or in the page links is not modelled
  either.
- The admin delete's `confirm` dialog is taken as accepted; declining it does
  nothing and needs no model.
- Registration, login, password hashing, CSRF tokens, `validate_email`,
  `validate_date`, `sanitize` and `redirect` are left out.
- Listing.Lower: lower-cases ASCII letters only. JavaScript's `toLowerCase`
  covers all of Unicode.

## Findings

| source | as written | input that shows it | evidently intended | confidence | as-written member | corrected member |
|---|---|---|---|---|---|---|
| apicart.php:32-58 | The quantity is tested only by `empty()` and `quantity > quantity_available`, so a negative quantity enters the cart. At checkout, `available < quantity` is false, and the decrement by a negative amount adds tickets. | POST quantity -3 for a ticket type with 1 available, then checkout: availability becomes 4 and the booking total is negative. | A cart quantity must be positive, and checkout only ever lowers availability. | high; not executed | SessionCart.AddAsWritten, SessionCart.HandleAsWritten, Findings.NegativeQuantityRaisesStock | SessionCart.AddToCart, SessionCart.Handle, Findings.CorrectedCartNeverRaisesStock |

=== FILE: checkout.dfy ===
/** The POST branch of the checkout endpoint: validate the payment form, read
    the session cart, compute the total, then inside one database transaction
    insert the booking, re-check and decrement every line's ticket type, and
    either commit and clear the cart or roll everything back.

    The transaction is one pure step from (cart, database) to (cart,
    database): a rolled-back transaction is an `Err` whose outputs equal its
    inputs. */
module CheckoutTransaction {
  import opened Results
  import opened Fields
  import opened Store

  /** The payment form fields, in the order they are validated. */
  const REQUIRED: seq<string> := ["payment_method", "first_name", "last_name", "email", "phone"]

  datatype CheckoutError =
    | AuthenticationRequired         // 401, no user in the session
    | MissingField(field: string)    // 400 "Field <field> is required"
    | EmptyCart                      // 400 "Your cart is empty"
    | NotEnoughTickets(ticketName: string)  // exception inside the transaction, rolled back

  /** The response together with the session cart and database after the call. */
  datatype Outcome = Outcome(response: Result<int, CheckoutError>, cart: Cart, db: Db)

  /** Line `i` passes the availability re-check: its ticket type exists and
      what is left of it, after the earlier lines' decrements, covers the
      line's quantity. */
  predicate LineFits(cart: Cart, inv: Inventory, i: int)
    requires 0 <= i < |cart|
  {
    var t := cart[i].ticketTypeId;
    t in inv && inv[t] - Demand(cart[..i], t) >= cart[i].quantity
  }

  /** Every line passes its re-check. */
  predicate Fits(cart: Cart, inv: Inventory)
  {
    forall i :: 0 <= i < |cart| ==> LineFits(cart, inv, i)
  }

  /** The reserve loop: for each line in cart order, read the current
      availability, fail with the line's ticket name if the ticket type is
      gone or too few remain, otherwise decrement. The result is the
      inventory after every decrement. */
  function Reserve(lines: Cart, inv: Inventory): (r: Result<Inventory, string>)
    ensures r.Ok? ==> r.value.Keys == inv.Keys
    ensures r.Ok? ==> forall i :: 0 <= i < |lines| ==> lines[i].ticketTypeId in inv
    ensures r.Ok? ==> forall t :: t in inv ==> r.value[t] == inv[t] - Demand(lines, t)
    decreases |lines|
  {
    if |lines| == 0 then Ok(inv)
    else
      var t := lines[0].ticketTypeId;
      if t !in inv || inv[t] < lines[0].quantity then Err(lines[0].ticketName)
      else Reserve(lines[1..], inv[t := inv[t] - lines[0].quantity])
  }

  /** The booked-ticket row the transaction inserts for one cart line: the
      price is the one recorded in the cart, not a re-read of the ticket type. */
  function TicketRow(bookingId: int, line: CartLine): BookedTicket
  {
    BookedTicket(bookingId, line.ticketTypeId, line.quantity, line.price)
  }

  function TicketRows(bookingId: int, cart: Cart): seq<BookedTicket>
  {
    seq(|cart|, i requires 0 <= i < |cart| => TicketRow(bookingId, cart[i]))
  }

  /** The whole POST request. `user` is the session's user id, `data` the
      decoded form. */
  function Checkout(user: Option<int>, data: Payload, cart: Cart, db: Db): (o: Outcome)
    // Every failure leaves the cart and all tables as they were.
    ensures o.response.Err? ==> o.cart == cart && o.db == db
    ensures o.response == Err(AuthenticationRequired) <==> user.None?
    // Form fields are checked first, in their fixed order.
    ensures user.Some? && FirstMissing(REQUIRED, data).Some? ==>
              o.response == Err(MissingField(FirstMissing(REQUIRED, data).value))
    ensures o.response.Err? && o.response.error.MissingField? ==> FirstMissing(REQUIRED, data).Some?
    ensures o.response == Err(EmptyCart) <==>
              user.Some? && FirstMissing(REQUIRED, data).None? && |cart| == 0
    // The transaction commits exactly when every line passes its re-check.
    ensures o.response.Ok? <==>
              user.Some? && FirstMissing(REQUIRED, data).None? && |cart| > 0 && Fits(cart, db.inventory)
    // A rejected line is the first one in cart order that does not fit.
    ensures o.response.Err? && o.response.error.NotEnoughTickets? ==>
              exists i :: 0 <= i < |cart| && !LineFits(cart, db.inventory, i)
                          && o.response.error.ticketName == cart[i].ticketName
                          && forall j :: 0 <= j < i ==> LineFits(cart, db.inventory, j)
    // On commit: the cart is cleared and one booking is appended, for the
    // first line's event, charging subtotal plus the service fee.
    ensures o.response.Ok? ==>
              && o.cart == []
              && o.response.value == db.nextBookingId
              && o.db.nextBookingId == db.nextBookingId + 1
              && "payment_method" in data
              && o.db.bookings == db.bookings + [Booking(db.nextBookingId, user.value, cart[0].eventId,
                                                         Subtotal(cart) + SERVICE_FEE, "paid",
                                                         data["payment_method"])]
    // On commit: one booked-ticket row per cart line, in cart order.
    ensures o.response.Ok? ==>
              && |o.db.bookedTickets| == |db.bookedTickets| + |cart|
              && o.db.bookedTickets[..|db.bookedTickets|] == db.bookedTickets
              && forall i :: 0 <= i < |cart| ==>
                   o.db.bookedTickets[|db.bookedTickets| + i]
                     == BookedTicket(db.nextBookingId, cart[i].ticketTypeId, cart[i].quantity, cart[i].price)
    // On commit: each ticket type drops by what the cart asked for it, and
    // no ticket type the cart names ends below zero.
    ensures o.response.Ok? ==>
              && o.db.inventory.Keys == db.inventory.Keys
              && (forall t :: t in db.inventory ==> o.db.inventory[t] == db.inventory[t] - Demand(cart, t))
              && (forall i :: 0 <= i < |cart| ==>
                    cart[i].ticketTypeId in o.db.inventory && o.db.inventory[cart[i].ticketTypeId] >= 0)
  {
    if user.None? then Outcome(Err(AuthenticationRequired), cart, db)
    else match FirstMissing(REQUIRED, data)
      case Some(f) => Outcome(Err(MissingField(f)), cart, db)
      case None =>
        if |cart| == 0 then Outcome(Err(EmptyCart), cart, db)
        else
          assert !Blank(data, REQUIRED[0]);
          var total := Subtotal(cart) + SERVICE_FEE;
          var bookingId := db.nextBookingId;
          var booking := Booking(bookingId, user.value, cart[0].eventId, total, "paid", data["payment_method"]);
          ReserveFirstFailure(cart, db.inventory);
          match Reserve(cart, db.inventory)
            case Err(name) => Outcome(Err(NotEnoughTickets(name)), cart, db)
            case Ok(inv) =>
              ReserveNeverOverdraws(cart, db.inventory);
              Outcome(Ok(bookingId), [],
                      Db(inv, db.bookings + [booking], db.bookedTickets + TicketRows(bookingId, cart), bookingId + 1))
  }

  /** Dropping the first line: the later lines fit against the inventory
      after the first line's decrement exactly when they fit against the
      original inventory. */
  lemma ShiftFits(lines: Cart, inv: Inventory, i: int)
    requires 0 < i < |lines|
    requires lines[0].ticketTypeId in inv
    ensures LineFits(lines, inv, i) <==>
              LineFits(lines[1..], inv[lines[0].ticketTypeId := inv[lines[0].ticketTypeId] - lines[0].quantity], i - 1)
  {
    var t := lines[i].ticketTypeId;
    assert lines[1..][i - 1] == lines[i];
    assert lines[..i][1..] == lines[1..][..i - 1];
  }

  /** The reserve loop succeeds exactly when every line fits, and when it
      fails it names the first line that does not. */
  lemma {:induction false} ReserveFirstFailure(lines: Cart, inv: Inventory)
    ensures Reserve(lines, inv).Ok? <==> Fits(lines, inv)
    ensures Reserve(lines, inv).Err? ==>
              exists i :: 0 <= i < |lines| && !LineFits(lines, inv, i)
                          && Reserve(lines, inv).error == lines[i].ticketName
                          && forall j :: 0 <= j < i ==> LineFits(lines, inv, j)
    decreases |lines|
  {
    if |lines| > 0 {
      var t := lines[0].ticketTypeId;
      assert lines[..0] == [];
      if t in inv && inv[t] >= lines[0].quantity {
        var inv' := inv[t := inv[t] - lines[0].quantity];
        ReserveFirstFailure(lines[1..], inv');
        forall i | 0 < i < |lines|
          ensures LineFits(lines, inv, i) <==> LineFits(lines[1..], inv', i - 1)
        {
          ShiftFits(lines, inv, i);
        }
        assert LineFits(lines, inv, 0);
        if Reserve(lines[1..], inv').Err? {
          var k :| 0 <= k < |lines| - 1 && !LineFits(lines[1..], inv', k)
                   && Reserve(lines[1..], inv').error == lines[1..][k].ticketName
                   && forall j :: 0 <= j < k ==> LineFits(lines[1..], inv', j);
          assert !LineFits(lines, inv, k + 1);
          forall j | 0 <= j < k + 1
            ensures LineFits(lines, inv, j)
          {
            if j > 0 {
              assert LineFits(lines[1..], inv', j - 1);
            }
          }
        } else {
          forall i | 0 <= i < |lines|
            ensures LineFits(lines, inv, i)
          {
            if i > 0 {
              assert LineFits(lines[1..], inv', i - 1);
            }
          }
        }
      } else {
        assert !LineFits(lines, inv, 0);
      }
    }
  }

  /** Every decrement is guarded by the check against the current,
      already-decremented value, so no ticket type the lines name ends
      below zero, whatever the starting inventory. */
  lemma {:induction false} ReserveNeverOverdraws(lines: Cart, inv: Inventory)
    requires Reserve(lines, inv).Ok?
    ensures forall i :: 0 <= i < |lines| ==> Reserve(lines, inv).value[lines[i].ticketTypeId] >= 0
    decreases |lines|
  {
    if |lines| > 0 {
      var t := lines[0].ticketTypeId;
      var inv' := inv[t := inv[t] - lines[0].quantity];
      ReserveNeverOverdraws(lines[1..], inv');
      forall i | 0 <= i < |lines|
        ensures Reserve(lines, inv).value[lines[i].ticketTypeId] >= 0
      {
        if i > 0 {
          assert lines[i] == lines[1..][i - 1];
        } else if exists j :: 0 <= j < |lines| - 1 && lines[1..][j].ticketTypeId == t {
        } else {
          DemandAbsent(lines[1..], t);
        }
      }
    }
  }
}

=== FILE: checkout_laws.dfy ===
/** Properties of the checkout transaction that relate several calls or
    restate its success condition in terms of total stock. */
module CheckoutLaws {
  import opened Results
  import opened Fields
  import opened Store
  import opened CheckoutTransaction

  /** Every line's ticket type exists and has at least as many tickets left
      as the whole cart asks for it. */
  predicate EnoughStock(cart: Cart, inv: Inventory)
  {
    forall i :: 0 <= i < |cart| ==>
      cart[i].ticketTypeId in inv && inv[cart[i].ticketTypeId] >= Demand(cart, cart[i].ticketTypeId)
  }

  /** For carts whose quantities are positive, the line-by-line re-check
      succeeds exactly when the stock covers the cart's total demand per
      ticket type: the order of the lines does not matter. */
  lemma {:induction false} ReserveIffEnoughStock(lines: Cart, inv: Inventory)
    requires PositiveQuantities(lines)
    ensures Reserve(lines, inv).Ok? <==> EnoughStock(lines, inv)
    decreases |lines|
  {
    if |lines| > 0 {
      var t0 := lines[0].ticketTypeId;
      var q0 := lines[0].quantity;
      var rest := lines[1..];
      assert PositiveQuantities(rest) by {
        forall i | 0 <= i < |rest| ensures rest[i].quantity > 0 {
          assert rest[i] == lines[i + 1];
        }
      }
      DemandBounds(lines, t0);
      if t0 in inv && inv[t0] >= q0 {
        var inv' := inv[t0 := inv[t0] - q0];
        ReserveIffEnoughStock(rest, inv');
        // For every later line, its condition against inv' is its condition against inv.
        forall i | 0 < i < |lines|
          ensures (lines[i].ticketTypeId in inv && inv[lines[i].ticketTypeId] >= Demand(lines, lines[i].ticketTypeId))
                  <==> (rest[i - 1].ticketTypeId in inv' && inv'[rest[i - 1].ticketTypeId] >= Demand(rest, rest[i - 1].ticketTypeId))
        {
          assert rest[i - 1] == lines[i];
        }
        if Reserve(lines, inv).Ok? {
          if forall j :: 0 <= j < |rest| ==> rest[j].ticketTypeId != t0 {
            DemandAbsent(rest, t0);
          } else {
            var j :| 0 <= j < |rest| && rest[j].ticketTypeId == t0;
            assert rest[j].ticketTypeId in inv' && inv'[rest[j].ticketTypeId] >= Demand(rest, rest[j].ticketTypeId);
          }
          assert EnoughStock(lines, inv);
        } else {
          var k :| 0 <= k < |rest| && !(rest[k].ticketTypeId in inv' && inv'[rest[k].ticketTypeId] >= Demand(rest, rest[k].ticketTypeId));
          assert !(lines[k + 1].ticketTypeId in inv && inv[lines[k + 1].ticketTypeId] >= Demand(lines, lines[k + 1].ticketTypeId));
        }
      } else {
        assert !(lines[0].ticketTypeId in inv && inv[lines[0].ticketTypeId] >= Demand(lines, lines[0].ticketTypeId));
      }
    }
  }

  /** The commit condition of the transaction in terms of total stock, for
      carts whose quantities are positive. */
  lemma CheckoutCommitsIffEnoughStock(user: Option<int>, data: Payload, cart: Cart, db: Db)
    requires PositiveQuantities(cart)
    ensures Checkout(user, data, cart, db).response.Ok? <==>
              user.Some? && FirstMissing(REQUIRED, data).None? && |cart| > 0 && EnoughStock(cart, db.inventory)
  {
    ReserveFirstFailure(cart, db.inventory);
    ReserveIffEnoughStock(cart, db.inventory);
  }

  /** Availability plus everything booked is constant for every ticket type:
      a committed checkout moves exactly the booked quantity from one to the
      other, a failed one moves nothing. */
  predicate Conserved(db: Db, initial: Inventory)
  {
    && db.inventory.Keys == initial.Keys
    && forall t :: t in initial ==> db.inventory[t] + BookedQuantity(db.bookedTickets, t) == initial[t]
  }

  lemma TicketRowsQuantity(bookingId: int, cart: Cart, t: int)
    ensures BookedQuantity(TicketRows(bookingId, cart), t) == Demand(cart, t)
    decreases |cart|
  {
    if |cart| > 0 {
      assert TicketRows(bookingId, cart)[1..] == TicketRows(bookingId, cart[1..]);
      TicketRowsQuantity(bookingId, cart[1..], t);
    }
  }

  /** After any sequence of checkouts starting from `initial` with no booked
      tickets, each ticket type's availability equals its initial value less
      everything booked against it. */
  lemma {:induction false} CheckoutConserves(user: Option<int>, data: Payload, cart: Cart, db: Db, initial: Inventory)
    requires Conserved(db, initial)
    ensures Conserved(Checkout(user, data, cart, db).db, initial)
  {
    var o := Checkout(user, data, cart, db);
    if o.response.Ok? {
      var rows := TicketRows(db.nextBookingId, cart);
      assert o.db.bookedTickets == db.bookedTickets + rows;
      forall t | t in initial
        ensures o.db.inventory[t] + BookedQuantity(o.db.bookedTickets, t) == initial[t]
      {
        BookedQuantityAppend(db.bookedTickets, rows, t);
        TicketRowsQuantity(db.nextBookingId, cart, t);
      }
    }
  }

  /** No checkout, committed or not, drives any availability below zero. */
  lemma {:induction false} CheckoutKeepsStockNonNegative(user: Option<int>, data: Payload, cart: Cart, db: Db)
    requires NonNegative(db.inventory)
    ensures NonNegative(Checkout(user, data, cart, db).db.inventory)
  {
    var o := Checkout(user, data, cart, db);
    if o.response.Ok? {
      forall t | t in o.db.inventory
        ensures o.db.inventory[t] >= 0
      {
        if forall i :: 0 <= i < |cart| ==> cart[i].ticketTypeId != t {
          DemandAbsent(cart, t);
        }
      }
    }
  }

  /** With positive quantities a checkout only ever lowers availability. */
  lemma {:induction false} CheckoutNeverRaisesStock(user: Option<int>, data: Payload, cart: Cart, db: Db)
    requires PositiveQuantities(cart)
    ensures forall t :: t in db.inventory ==> Checkout(user, data, cart, db).db.inventory[t] <= db.inventory[t]
  {
    forall t | t in db.inventory
      ensures Checkout(user, data, cart, db).db.inventory[t] <= db.inventory[t]
    {
      DemandBounds(cart, t);
    }
  }

  /** Retrying a rejected checkout gives the same rejection and still changes
      nothing. */
  lemma FailureIsRepeatable(user: Option<int>, data: Payload, cart: Cart, db: Db)
    requires Checkout(user, data, cart, db).response.Err?
    ensures var o := Checkout(user, data, cart, db);
            Checkout(user, data, o.cart, o.db) == o && o.cart == cart && o.db == db
  {
  }

  /** A filled-in payment form. */
  const FORM: Payload := map["payment_method" := "card", "first_name" := "Ada", "last_name" := "Byron",
                             "email" := "ada@example.com", "phone" := "555"]

  /** Two 45.00 tickets of type 7 with 200 available: the booking charges
      92.50 and 198 remain. */
  lemma SuccessfulCheckoutExample()
    ensures var cart := [CartLine(1, "Summer Music Festival", 7, "General Admission", 4500, 2)];
            var db := Db(map[7 := 200], [], [], 1);
            var o := Checkout(Some(42), FORM, cart, db);
            && o.response == Ok(1)
            && o.db.bookings == [Booking(1, 42, 1, 9250, "paid", "card")]
            && o.db.bookedTickets == [BookedTicket(1, 7, 2, 4500)]
            && o.db.inventory == map[7 := 198]
            && o.cart == []
  {
    var cart := [CartLine(1, "Summer Music Festival", 7, "General Admission", 4500, 2)];
    var db := Db(map[7 := 200], [], [], 1);
    assert FirstMissing(REQUIRED, FORM).None?;
    assert Reserve(cart[1..], map[7 := 198]) == Ok(map[7 := 198]);
    assert map[7 := 200][7 := 200 - 2] == map[7 := 198];
  }

  /** The same cart with one ticket left: rejected, one ticket still left,
      no booking. */
  lemma RejectedCheckoutExample()
    ensures var cart := [CartLine(1, "Summer Music Festival", 7, "General Admission", 4500, 2)];
            var db := Db(map[7 := 1], [], [], 1);
            var o := Checkout(Some(42), FORM, cart, db);
            && o.response == Err(NotEnoughTickets("General Admission"))
            && o.db.inventory == map[7 := 1]
            && o.db.bookings == []
            && o.cart == cart
  {
    assert FirstMissing(REQUIRED, FORM).None?;
  }
}

=== FILE: client_cart.dfy ===
/** The browser-side `ShoppingCart`: lines keyed by (event id, ticket type
    name), stored in local storage, with the subtotal, total and badge count
    the page shows. Persisting and re-rendering after each change is left
    out; each operation is a function from the old item list to the new. */
module ClientCart {
  import opened Results

  /** `this.serviceFee` (2.50) in cents; the browser keeps its own copy of the
      server's fee. */
  const SERVICE_FEE: int := 250

  datatype Item = Item(eventId: int, eventName: string, ticketType: string, quantity: int, price: int)

  datatype ClientCartError = NoSuchItem  // `this.items[index]` is undefined: a TypeError

  /** Sum of quantity * price. */
  function Subtotal(items: seq<Item>): int
  {
    if |items| == 0 then 0 else items[0].quantity * items[0].price + Subtotal(items[1..])
  }

  /** The number shown on the cart badge: the sum of all quantities. */
  function Count(items: seq<Item>): int
  {
    if |items| == 0 then 0 else items[0].quantity + Count(items[1..])
  }

  /** `getTotal`: nothing is charged for a cart whose subtotal is not
      positive; otherwise the fee is added. */
  function Total(items: seq<Item>): (r: int)
    ensures r == 0 || r > SERVICE_FEE
    ensures r >= Subtotal(items)
  {
    var subtotal := Subtotal(items);
    if subtotal > 0 then subtotal + SERVICE_FEE else 0
  }

  /** `items.find`: the first line for the same event and ticket type. */
  function FindItem(items: seq<Item>, eventId: int, ticketType: string): (r: Option<int>)
    ensures r.Some? ==> 0 <= r.value < |items|
                        && items[r.value].eventId == eventId && items[r.value].ticketType == ticketType
                        && forall j :: 0 <= j < r.value ==> !(items[j].eventId == eventId && items[j].ticketType == ticketType)
    ensures r.None? <==> forall j :: 0 <= j < |items| ==> !(items[j].eventId == eventId && items[j].ticketType == ticketType)
    decreases |items|
  {
    if |items| == 0 then None
    else if items[0].eventId == eventId && items[0].ticketType == ticketType then Some(0)
    else
      match FindItem(items[1..], eventId, ticketType)
      case None => None
      case Some(k) => Some(k + 1)
  }

  lemma {:induction false} SumsAppend(a: seq<Item>, b: seq<Item>)
    ensures Subtotal(a + b) == Subtotal(a) + Subtotal(b)
    ensures Count(a + b) == Count(a) + Count(b)
    decreases |a|
  {
    if |a| == 0 {
      assert a + b == b;
    } else {
      assert (a + b)[1..] == a[1..] + b;
      SumsAppend(a[1..], b);
    }
  }

  /** Splitting the list around index `i`. */
  lemma SumsSplit(items: seq<Item>, i: int)
    requires 0 <= i < |items|
    ensures Subtotal(items) == Subtotal(items[..i]) + items[i].quantity * items[i].price + Subtotal(items[i + 1..])
    ensures Count(items) == Count(items[..i]) + items[i].quantity + Count(items[i + 1..])
  {
    assert items == items[..i] + ([items[i]] + items[i + 1..]);
    SumsAppend(items[..i], [items[i]] + items[i + 1..]);
    SumsAppend([items[i]], items[i + 1..]);
    assert ([items[i]] + items[i + 1..])[1..] == items[i + 1..];
  }

  /** `addItem`: grows the matching line, or appends a new one. */
  function AddItem(items: seq<Item>, eventId: int, eventName: string, ticketType: string, quantity: int, price: int)
    : (r: seq<Item>)
    ensures FindItem(items, eventId, ticketType).Some? ==>
              var i := FindItem(items, eventId, ticketType).value;
              && |r| == |items|
              && r[i] == items[i].(quantity := items[i].quantity + quantity)
              && forall j :: 0 <= j < |items| && j != i ==> r[j] == items[j]
    ensures FindItem(items, eventId, ticketType).None? ==>
              r == items + [Item(eventId, eventName, ticketType, quantity, price)]
    // The badge grows by the added quantity; the subtotal by that quantity at
    // the price of the line that received it (a merged line keeps its price).
    ensures Count(r) == Count(items) + quantity
    ensures Subtotal(r) == Subtotal(items) + quantity *
              (match FindItem(items, eventId, ticketType)
               case Some(i) => items[i].price
               case None => price)
  {
    match FindItem(items, eventId, ticketType)
    case Some(i) =>
      var r := items[i := items[i].(quantity := items[i].quantity + quantity)];
      SumsSplit(items, i);
      SumsSplit(r, i);
      assert r[..i] == items[..i] && r[i + 1..] == items[i + 1..];
      r
    case None =>
      var line := Item(eventId, eventName, ticketType, quantity, price);
      SumsAppend(items, [line]);
      assert Subtotal([line]) == quantity * price + Subtotal([line][1..]);
      items + [line]
  }

  /** The element `splice(start, 1)` deletes, if any: a negative start
      counts from the end and is clamped at 0; a start at or past the end
      deletes nothing. */
  function SpliceTarget(length: int, start: int): (r: Option<int>)
    requires length >= 0
    ensures r.Some? ==> 0 <= r.value < length
    ensures 0 <= start < length ==> r == Some(start)
    ensures -length <= start < 0 ==> r == Some(length + start)
    ensures length > 0 && start < -length ==> r == Some(0)
    ensures r.None? <==> length == 0 || start >= length
  {
    var k := if start < 0 then (if length + start > 0 then length + start else 0) else start;
    if k < length then Some(k) else None
  }

  /** `removeItem(index)`. */
  function RemoveItem(items: seq<Item>, index: int): (r: seq<Item>)
    ensures SpliceTarget(|items|, index).None? ==> r == items
    ensures SpliceTarget(|items|, index).Some? ==>
              var k := SpliceTarget(|items|, index).value;
              && |r| == |items| - 1
              && (forall j :: 0 <= j < k ==> r[j] == items[j])
              && (forall j :: k <= j < |r| ==> r[j] == items[j + 1])
              && Count(r) == Count(items) - items[k].quantity
              && Subtotal(r) == Subtotal(items) - items[k].quantity * items[k].price
  {
    match SpliceTarget(|items|, index)
    case None => items
    case Some(k) =>
      SumsSplit(items, k);
      SumsAppend(items[..k], items[k + 1..]);
      items[..k] + items[k + 1..]
  }

  /** `updateQuantity(index, quantity)`: a quantity of zero or less removes
      the line; otherwise only that line's quantity changes, and an index
      with no line behind it throws. */
  function UpdateQuantity(items: seq<Item>, index: int, quantity: int): (r: Result<seq<Item>, ClientCartError>)
    ensures quantity <= 0 ==> r == Ok(RemoveItem(items, index))
    ensures quantity > 0 ==> (r.Err? <==> !(0 <= index < |items|))
    ensures quantity > 0 && r.Ok? ==>
              && |r.value| == |items|
              && r.value[index] == items[index].(quantity := quantity)
              && (forall j :: 0 <= j < |items| && j != index ==> r.value[j] == items[j])
              && Count(r.value) == Count(items) - items[index].quantity + quantity
  {
    if quantity <= 0 then Ok(RemoveItem(items, index))
    else if 0 <= index < |items| then
      var r := items[index := items[index].(quantity := quantity)];
      SumsSplit(items, index);
      SumsSplit(r, index);
      assert r[..index] == items[..index] && r[index + 1..] == items[index + 1..];
      Ok(r)
    else Err(NoSuchItem)
  }

  /** `clearCart`: no lines, nothing on the badge, nothing charged. */
  function ClearCart(): (r: seq<Item>)
    ensures |r| == 0
    ensures Count(r) == 0 && Subtotal(r) == 0 && Total(r) == 0
  {
    []
  }

  /** Removing a line that was just appended gives back the original cart. */
  lemma AddThenRemoveRestores(items: seq<Item>, eventId: int, eventName: string, ticketType: string,
                              quantity: int, price: int)
    requires FindItem(items, eventId, ticketType).None?
    ensures RemoveItem(AddItem(items, eventId, eventName, ticketType, quantity, price), |items|) == items
  {
    var r := AddItem(items, eventId, eventName, ticketType, quantity, price);
    assert r[..|items|] == items;
  }

  /** A non-empty cart of positive quantities at positive prices is charged
      its subtotal plus the fee, and the subtotal is at least the badge
      count (every ticket costs at least one cent). */
  lemma {:induction false} PositiveCartIsCharged(items: seq<Item>)
    requires |items| > 0
    requires forall i :: 0 <= i < |items| ==> items[i].quantity > 0 && items[i].price > 0
    ensures Subtotal(items) >= Count(items) > 0
    ensures Total(items) == Subtotal(items) + SERVICE_FEE
    decreases |items|
  {
    var q, p := items[0].quantity, items[0].price;
    assert q * p >= q by {
      assert q * p == q * (p - 1) + q;
    }
    if |items| > 1 {
      PositiveCartIsCharged(items[1..]);
    }
  }
}

=== FILE: event_sort.dfy ===
/** `sortEvents`: reorders the displayed events by date or price, ascending
    or descending, and goes back to page 1; an unrecognised criterion leaves
    the order alone. The comparator `b - a` of a descending sort is an
    ascending sort on the negated key. */
module EventSort {
  import opened Listing

  datatype Criterion = DateAsc | DateDesc | PriceAsc | PriceDesc | Unrecognised

  /** The `criteria` string `sortEvents` switches on for each criterion. */
  function Name(c: Criterion): string
  {
    match c
    case DateAsc => "date-asc"
    case DateDesc => "date-desc"
    case PriceAsc => "price-asc"
    case PriceDesc => "price-desc"
    case Unrecognised => ""
  }

  /** The `switch` of `sortEvents`: a recognised criterion is the one whose
      name the string is; any other string falls through every case. */
  function ParseCriterion(s: string): (c: Criterion)
    ensures c != Unrecognised ==> Name(c) == s
    ensures c == Unrecognised ==> forall k: Criterion :: k != Unrecognised ==> Name(k) != s
  {
    if s == "date-asc" then DateAsc
    else if s == "date-desc" then DateDesc
    else if s == "price-asc" then PriceAsc
    else if s == "price-desc" then PriceDesc
    else Unrecognised
  }

  /** Parsing a criterion's name gives the criterion back. */
  lemma ParseName(c: Criterion)
    requires c != Unrecognised
    ensures ParseCriterion(Name(c)) == c
  {
  }

  /** The number the comparator subtracts. */
  function Key(c: Criterion, e: Event): int
  {
    match c
    case DateAsc => e.date
    case DateDesc => -e.date
    case PriceAsc => e.price
    case PriceDesc => -e.price
    case Unrecognised => 0
  }

  predicate SortedBy(c: Criterion, s: seq<Event>)
  {
    forall i, j :: 0 <= i < j < |s| ==> Key(c, s[i]) <= Key(c, s[j])
  }

  /** Puts `x` before the first element whose key is not smaller. */
  function Insert(c: Criterion, x: Event, s: seq<Event>): (r: seq<Event>)
    ensures multiset(r) == multiset(s) + multiset{x}
    decreases |s|
  {
    if |s| == 0 then [x]
    else if Key(c, x) <= Key(c, s[0]) then [x] + s
    else
      assert s == [s[0]] + s[1..];
      [s[0]] + Insert(c, x, s[1..])
  }

  /** Every element of an insertion's result is `x` or came from the list. */
  lemma {:induction false} InsertMembers(c: Criterion, x: Event, s: seq<Event>)
    ensures forall e :: e in Insert(c, x, s) ==> e == x || e in s
    decreases |s|
  {
    if |s| > 0 && Key(c, x) > Key(c, s[0]) {
      InsertMembers(c, x, s[1..]);
      assert forall e :: e in s[1..] ==> e in s;
    }
  }

  /** A key bound that holds of `x` and of every element of the list holds
      of every element of the insertion's result. */
  lemma BoundSurvivesInsert(c: Criterion, x: Event, s: seq<Event>, b: int)
    requires b <= Key(c, x)
    requires forall k :: 0 <= k < |s| ==> b <= Key(c, s[k])
    ensures forall k :: 0 <= k < |Insert(c, x, s)| ==> b <= Key(c, Insert(c, x, s)[k])
  {
    var r := Insert(c, x, s);
    InsertMembers(c, x, s);
    forall k | 0 <= k < |r|
      ensures b <= Key(c, r[k])
    {
      assert r[k] in r;
      if r[k] != x {
        var m :| 0 <= m < |s| && s[m] == r[k];
      }
    }
  }

  /** Inserting into a sorted list keeps it sorted. */
  lemma {:induction false} InsertKeepsSorted(c: Criterion, x: Event, s: seq<Event>)
    requires SortedBy(c, s)
    ensures SortedBy(c, Insert(c, x, s))
    decreases |s|
  {
    if |s| > 0 && Key(c, x) > Key(c, s[0]) {
      var rest := Insert(c, x, s[1..]);
      assert SortedBy(c, s[1..]) by {
        forall i, j | 0 <= i < j < |s| - 1
          ensures Key(c, s[1..][i]) <= Key(c, s[1..][j])
        {
          assert s[1..][i] == s[i + 1] && s[1..][j] == s[j + 1];
        }
      }
      InsertKeepsSorted(c, x, s[1..]);
      BoundSurvivesInsert(c, x, s[1..], Key(c, s[0]));
      var r := [s[0]] + rest;
      forall i, j | 0 <= i < j < |r|
        ensures Key(c, r[i]) <= Key(c, r[j])
      {
        assert r[j] == rest[j - 1];
        if i > 0 {
          assert r[i] == rest[i - 1];
        }
      }
    } else if |s| > 0 {
      var r := [x] + s;
      forall i, j | 0 <= i < j < |r|
        ensures Key(c, r[i]) <= Key(c, r[j])
      {
        assert r[j] == s[j - 1];
        if i > 0 {
          assert r[i] == s[i - 1];
        }
      }
    }
  }

  /** The elements of `s` whose key under `c` is `k`, in their order in `s`.
      A sort is stable when this is the same before and after for every `k`. */
  function WithKey(c: Criterion, k: int, s: seq<Event>): seq<Event>
    decreases |s|
  {
    if |s| == 0 then []
    else (if Key(c, s[0]) == k then [s[0]] else []) + WithKey(c, k, s[1..])
  }

  /** Insertion passes only elements with a strictly smaller key, so among
      equal keys `x` lands first and the others keep their order. */
  lemma {:induction false} InsertIsStable(c: Criterion, x: Event, s: seq<Event>)
    ensures forall k :: WithKey(c, k, Insert(c, x, s)) == (if Key(c, x) == k then [x] else []) + WithKey(c, k, s)
    decreases |s|
  {
    if |s| == 0 {
      forall k
        ensures WithKey(c, k, [x]) == (if Key(c, x) == k then [x] else []) + WithKey(c, k, [])
      {
        assert [x][1..] == [];
      }
    } else if Key(c, x) <= Key(c, s[0]) {
      forall k
        ensures WithKey(c, k, [x] + s) == (if Key(c, x) == k then [x] else []) + WithKey(c, k, s)
      {
        assert ([x] + s)[1..] == s;
      }
    } else {
      InsertIsStable(c, x, s[1..]);
      var rest := Insert(c, x, s[1..]);
      forall k
        ensures WithKey(c, k, [s[0]] + rest) == (if Key(c, x) == k then [x] else []) + WithKey(c, k, s)
      {
        assert ([s[0]] + rest)[1..] == rest;
      }
    }
  }

  /** Insertion sort with the comparator of `c`. */
  function InsertionSort(c: Criterion, s: seq<Event>): (r: seq<Event>)
    ensures multiset(r) == multiset(s)
    ensures SortedBy(c, r)
    ensures forall k :: WithKey(c, k, r) == WithKey(c, k, s)
    decreases |s|
  {
    if |s| == 0 then []
    else
      assert s == [s[0]] + s[1..];
      var sorted := InsertionSort(c, s[1..]);
      InsertKeepsSorted(c, s[0], sorted);
      InsertIsStable(c, s[0], sorted);
      Insert(c, s[0], sorted)
  }

  /** Sorting the displayed list by a criterion and going back to page 1. */
  function SortBy(c: Criterion, display: seq<Event>): (v: View)
    ensures v.page == 1
    ensures multiset(v.display) == multiset(display)
    ensures c == Unrecognised ==> v.display == display
    ensures forall k :: WithKey(c, k, v.display) == WithKey(c, k, display)
    ensures c == DateAsc ==> forall i, j :: 0 <= i < j < |v.display| ==> v.display[i].date <= v.display[j].date
    ensures c == DateDesc ==> forall i, j :: 0 <= i < j < |v.display| ==> v.display[i].date >= v.display[j].date
    ensures c == PriceAsc ==> forall i, j :: 0 <= i < j < |v.display| ==> v.display[i].price <= v.display[j].price
    ensures c == PriceDesc ==> forall i, j :: 0 <= i < j < |v.display| ==> v.display[i].price >= v.display[j].price
  {
    if c == Unrecognised then View(display, 1)
    else
      var r := InsertionSort(c, display);
      assert forall i, j :: 0 <= i < j < |r| ==> Key(c, r[i]) <= Key(c, r[j]);
      View(r, 1)
  }

  /** `sortEvents(criteria)` on the displayed list: page 1, the same events,
      ordered as the named criterion says, with equal keys in their old
      relative order (the sort is stable); an unknown name keeps the order. */
  function SortEvents(criteria: string, display: seq<Event>): (v: View)
    ensures v.page == 1
    ensures multiset(v.display) == multiset(display)
    ensures ParseCriterion(criteria) == Unrecognised ==> v.display == display
    ensures ParseCriterion(criteria) != Unrecognised ==> SortedBy(ParseCriterion(criteria), v.display)
    ensures forall k :: WithKey(ParseCriterion(criteria), k, v.display) == WithKey(ParseCriterion(criteria), k, display)
  {
    SortBy(ParseCriterion(criteria), display)
  }

  /** Each of the four names sorts in its own order. */
  lemma SortEventsByName(display: seq<Event>)
    ensures var v := SortEvents("date-asc", display).display;
            forall i, j :: 0 <= i < j < |v| ==> v[i].date <= v[j].date
    ensures var v := SortEvents("date-desc", display).display;
            forall i, j :: 0 <= i < j < |v| ==> v[i].date >= v[j].date
    ensures var v := SortEvents("price-asc", display).display;
            forall i, j :: 0 <= i < j < |v| ==> v[i].price <= v[j].price
    ensures var v := SortEvents("price-desc", display).display;
            forall i, j :: 0 <= i < j < |v| ==> v[i].price >= v[j].price
  {
    ParseName(DateAsc);
    ParseName(DateDesc);
    ParseName(PriceAsc);
    ParseName(PriceDesc);
  }

  /** Sorting twice by the same criterion gives a list sorted by it that is
      still a permutation of the original. */
  lemma SortAgainStaysSorted(criteria: string, display: seq<Event>)
    ensures var once := SortEvents(criteria, display).display;
            var twice := SortEvents(criteria, once).display;
            var c := ParseCriterion(criteria);
            multiset(twice) == multiset(display) && (c != Unrecognised ==> SortedBy(c, twice))
  {
  }
}

=== FILE: events_api.dfy ===
/** The events endpoint. GET builds the paginated, filtered listing query:
    page and offset arithmetic, the WHERE clause and its parameter list, and
    the page count. POST lets an administrator create an event with its
    ticket types. The database is a parameter: GET is given the row count
    the COUNT query returns, POST appends rows to two tables. */
module EventsApi {
  import opened Results
  import opened Fields
  import opened SqlText

  const DEFAULT_PER_PAGE: int := 6

  /** A bound statement parameter. */
  datatype Param = Text(text: string) | Number(n: int)

  /** The WHERE conditions and their parameters, in the order built. */
  datatype Filter = Filter(conditions: seq<string>, params: seq<Param>)

  /** The listing request: `page` and `per_page` after their `(int)` casts,
      and the raw query string for the filters. */
  datatype ListQuery = ListQuery(page: Option<int>, perPage: Option<int>, filters: Payload)

  /** What GET binds and reports for one page of events. */
  datatype EventPage = EventPage(
    page: int,
    perPage: int,
    offset: int,
    whereClause: string,
    countParams: seq<Param>,   // bound to the COUNT query
    selectParams: seq<Param>,  // bound to the SELECT ... LIMIT ? OFFSET ? query
    totalPages: int)

  datatype ListError = DivisionByZero  // per_page 0 reaches the unguarded division

  /** `max(1, page)`, or 1 when absent. */
  function Page(q: ListQuery): (r: int)
    ensures r >= 1
  {
    if q.page.Some? then (if q.page.value > 1 then q.page.value else 1) else 1
  }

  function PerPage(q: ListQuery): int
  {
    if q.perPage.Some? then q.perPage.value else DEFAULT_PER_PAGE
  }

  /** Rows skipped before the requested page. */
  function Offset(page: int, perPage: int): (r: int)
    requires page >= 1
    ensures r == (page - 1) * perPage
    ensures perPage >= 0 ==> r >= 0
    ensures page == 1 ==> r == 0
  {
    (page - 1) * perPage
  }

  /** No conditions, no parameters. */
  const NO_FILTER: Filter := Filter([], [])

  /** One filter after another. */
  function Then(a: Filter, b: Filter): Filter
  {
    Filter(a.conditions + b.conditions, a.params + b.params)
  }

  /** The LIKE pattern matching any text that contains `term`. */
  function LikePattern(term: string): string
  {
    "%" + term + "%"
  }

  /** The search filter binds `%term%` twice, once for each LIKE. */
  function SearchFilter(query: Payload): Filter
  {
    if Blank(query, "search") then NO_FILTER
    else
      var pattern := LikePattern(query["search"]);
      Filter([SEARCH_CONDITION], [Text(pattern), Text(pattern)])
  }

  /** An equality filter on one column binds the query value once. */
  function EqualityFilter(query: Payload, key: string, condition: string): Filter
  {
    if Blank(query, key) then NO_FILTER else Filter([condition], [Text(query[key])])
  }

  /** The four optional filters in the order they are built. */
  function Filters(query: Payload): Filter
  {
    Then(Then(Then(SearchFilter(query),
                   EqualityFilter(query, "location", LOCATION_CONDITION)),
              EqualityFilter(query, "date", DATE_CONDITION)),
         EqualityFilter(query, "category", CATEGORY_CONDITION))
  }

  /** The filter list has a condition exactly when some filter is set. */
  lemma FiltersEmpty(query: Payload)
    ensures |Filters(query).conditions| == 0 <==>
              Blank(query, "search") && Blank(query, "location") && Blank(query, "date") && Blank(query, "category")
  {
  }

  /** A set search term supplies the first two parameters. */
  lemma SearchBindsFirst(query: Payload)
    ensures !Blank(query, "search") ==>
              |Filters(query).params| >= 2
              && Filters(query).params[0] == Filters(query).params[1] == Text(LikePattern(query["search"]))
  {
    var s := SearchFilter(query);
    var rest := Then(Then(EqualityFilter(query, "location", LOCATION_CONDITION),
                          EqualityFilter(query, "date", DATE_CONDITION)),
                     EqualityFilter(query, "category", CATEGORY_CONDITION));
    assert Filters(query).params == s.params + rest.params;
  }

  /** `implode(sep, parts)`. */
  function Join(parts: seq<string>, sep: string): string
  {
    if |parts| == 0 then ""
    else if |parts| == 1 then parts[0]
    else parts[0] + sep + Join(parts[1..], sep)
  }

  function WhereClause(conditions: seq<string>): string
  {
    if |conditions| == 0 then "" else "WHERE " + Join(conditions, " AND ")
  }

  /** Placeholders in all the conditions together. */
  function TotalPlaceholders(conditions: seq<string>): nat
  {
    if |conditions| == 0 then 0 else Placeholders(conditions[0]) + TotalPlaceholders(conditions[1..])
  }

  lemma {:induction false} TotalPlaceholdersAppend(a: seq<string>, b: seq<string>)
    ensures TotalPlaceholders(a + b) == TotalPlaceholders(a) + TotalPlaceholders(b)
    decreases |a|
  {
    if |a| == 0 {
      assert a + b == b;
    } else {
      assert (a + b)[1..] == a[1..] + b;
      TotalPlaceholdersAppend(a[1..], b);
    }
  }

  /** Joining with a separator that has no placeholder adds none. */
  lemma {:induction false} JoinPlaceholders(parts: seq<string>, sep: string)
    requires Placeholders(sep) == 0
    ensures Placeholders(Join(parts, sep)) == TotalPlaceholders(parts)
    decreases |parts|
  {
    if |parts| == 1 {
      assert TotalPlaceholders(parts[1..]) == 0;
    } else if |parts| > 1 {
      JoinPlaceholders(parts[1..], sep);
      PlaceholdersAppend(parts[0] + sep, Join(parts[1..], sep));
      PlaceholdersAppend(parts[0], sep);
    }
  }

  /** Each condition's placeholders are matched by the parameters it adds. */
  predicate Balanced(f: Filter)
  {
    TotalPlaceholders(f.conditions) == |f.params|
  }

  lemma ThenBalanced(a: Filter, b: Filter)
    requires Balanced(a) && Balanced(b)
    ensures Balanced(Then(a, b))
  {
    TotalPlaceholdersAppend(a.conditions, b.conditions);
  }

  lemma SearchBalanced(query: Payload)
    ensures Balanced(SearchFilter(query))
  {
    if !Blank(query, "search") {
      SearchPlaceholders();
      assert TotalPlaceholders([SEARCH_CONDITION]) == Placeholders(SEARCH_CONDITION) + TotalPlaceholders([]);
    }
  }

  lemma EqualityBalanced(query: Payload, key: string, condition: string)
    requires Placeholders(condition) == 1
    ensures Balanced(EqualityFilter(query, key, condition))
  {
    if !Blank(query, key) {
      assert TotalPlaceholders([condition]) == Placeholders(condition) + TotalPlaceholders([]);
    }
  }

  lemma FiltersBalanced(query: Payload)
    ensures Balanced(Filters(query))
  {
    SearchBalanced(query);
    LocationPlaceholders();
    DatePlaceholders();
    CategoryPlaceholders();
    EqualityBalanced(query, "location", LOCATION_CONDITION);
    EqualityBalanced(query, "date", DATE_CONDITION);
    EqualityBalanced(query, "category", CATEGORY_CONDITION);
    var l := EqualityFilter(query, "location", LOCATION_CONDITION);
    var d := EqualityFilter(query, "date", DATE_CONDITION);
    ThenBalanced(SearchFilter(query), l);
    ThenBalanced(Then(SearchFilter(query), l), d);
    ThenBalanced(Then(Then(SearchFilter(query), l), d), EqualityFilter(query, "category", CATEGORY_CONDITION));
  }

  /** No conditions, no WHERE clause. */
  lemma WhereEmpty(conditions: seq<string>)
    ensures WhereClause(conditions) == "" <==> |conditions| == 0
  {
    if |conditions| > 0 {
      assert |WhereClause(conditions)| >= |"WHERE "|;
    }
  }

  /** The WHERE clause has exactly the conditions' placeholders. */
  lemma WherePlaceholders(conditions: seq<string>)
    ensures Placeholders(WhereClause(conditions)) == TotalPlaceholders(conditions)
  {
    if |conditions| > 0 {
      NoPlaceholders(" AND ");
      JoinPlaceholders(conditions, " AND ");
      NoPlaceholders("WHERE ");
      PlaceholdersAppend("WHERE ", Join(conditions, " AND "));
    }
  }

  /** `ceil(total / per_page)` for a non-zero page size: the least page
      count whose pages hold all rows. */
  function TotalPages(total: nat, perPage: int): (r: int)
    requires perPage != 0
    ensures perPage > 0 ==> r >= 0 && r * perPage >= total && (r - 1) * perPage < total
    ensures perPage < 0 ==> r <= 0 && r * perPage <= total && (r - 1) * perPage > total
  {
    if perPage > 0 then (total + perPage - 1) / perPage
    else -(total / -perPage)
  }

  /** The WHERE clause of a query string: empty exactly when no filter is
      set, and with one placeholder per bound parameter. */
  lemma WhereFacts(query: Payload)
    ensures WhereClause(Filters(query).conditions) == "" <==>
              Blank(query, "search") && Blank(query, "location") && Blank(query, "date") && Blank(query, "category")
    ensures Placeholders(WhereClause(Filters(query).conditions)) == |Filters(query).params|
  {
    var f := Filters(query);
    FiltersBalanced(query);
    FiltersEmpty(query);
    WherePlaceholders(f.conditions);
    WhereEmpty(f.conditions);
  }

  /** The listing for one page: the SELECT binds the COUNT's parameters,
      then LIMIT and OFFSET. */
  function Assemble(page: int, perPage: int, where: string, params: seq<Param>, total: nat): (l: EventPage)
    requires page >= 1 && perPage != 0
    ensures l.page == page && l.perPage == perPage && l.whereClause == where && l.countParams == params
    ensures l.offset == Offset(page, perPage)
    ensures l.totalPages == TotalPages(total, perPage)
    ensures l.selectParams == l.countParams + [Number(l.perPage), Number(l.offset)]
  {
    var offset := Offset(page, perPage);
    EventPage(page, perPage, offset, where, params, params + [Number(perPage), Number(offset)],
            TotalPages(total, perPage))
  }

  /** The GET branch. */
  function List(q: ListQuery, total: nat): (r: Result<EventPage, ListError>)
    ensures r.Err? <==> PerPage(q) == 0
    ensures r.Ok? ==> r.value.page == Page(q) >= 1 && r.value.perPage == PerPage(q)
    ensures r.Ok? ==> r.value.offset == Offset(r.value.page, r.value.perPage)
    ensures r.Ok? && r.value.perPage > 0 ==> r.value.offset >= 0
    ensures r.Ok? ==> r.value.totalPages == TotalPages(total, r.value.perPage)
    // no filter, no WHERE clause
    ensures r.Ok? ==>
              (r.value.whereClause == "" <==>
                 Blank(q.filters, "search") && Blank(q.filters, "location")
                 && Blank(q.filters, "date") && Blank(q.filters, "category"))
    // every placeholder of each query has exactly one parameter
    ensures r.Ok? ==> r.value.whereClause == WhereClause(Filters(q.filters).conditions)
    ensures r.Ok? ==> r.value.countParams == Filters(q.filters).params
    ensures r.Ok? ==> Placeholders(r.value.whereClause) == |r.value.countParams|
    ensures r.Ok? ==> r.value.selectParams == r.value.countParams + [Number(r.value.perPage), Number(r.value.offset)]
    ensures r.Ok? ==> Placeholders(r.value.whereClause) + 2 == |r.value.selectParams|
  {
    var page := Page(q);
    var perPage := PerPage(q);
    if perPage == 0 then Err(DivisionByZero)
    else
      var f := Filters(q.filters);
      var where := WhereClause(f.conditions);
      WhereFacts(q.filters);
      Ok(Assemble(page, perPage, where, f.params, total))
  }

  /** A set search term is bound twice, as a `%term%` pattern, before any
      other filter's value. */
  lemma ListBindsSearchFirst(q: ListQuery, total: nat)
    requires PerPage(q) != 0 && !Blank(q.filters, "search")
    ensures var p := List(q, total).value.countParams;
            |p| >= 2 && p[0] == p[1] == Text(LikePattern(q.filters["search"]))
  {
    SearchBindsFirst(q.filters);
  }

  /** The conditions are those of the set filters, in the order search,
      location, date, category. */
  lemma FilterConditions(query: Payload)
    ensures Filters(query).conditions
            == (if Blank(query, "search") then [] else [SEARCH_CONDITION])
               + (if Blank(query, "location") then [] else [LOCATION_CONDITION])
               + (if Blank(query, "date") then [] else [DATE_CONDITION])
               + (if Blank(query, "category") then [] else [CATEGORY_CONDITION])
  {
  }

  /** The parameters are those of the set filters, in the same order. */
  lemma FilterParams(query: Payload)
    ensures Filters(query).params
            == SearchFilter(query).params
               + (if Blank(query, "location") then [] else [Text(query["location"])])
               + (if Blank(query, "date") then [] else [Text(query["date"])])
               + (if Blank(query, "category") then [] else [Text(query["category"])])
  {
  }

  /** Each set equality filter's value is bound at the index equal to the
      number of placeholders in the conditions built before it. */
  lemma FilterBindings(query: Payload)
    ensures var s, l, d := SearchFilter(query), EqualityFilter(query, "location", LOCATION_CONDITION),
                          EqualityFilter(query, "date", DATE_CONDITION);
            var p := Filters(query).params;
            && (!Blank(query, "location") ==>
                  var i := TotalPlaceholders(s.conditions);
                  i < |p| && p[i] == Text(query["location"]))
            && (!Blank(query, "date") ==>
                  var i := TotalPlaceholders(Then(s, l).conditions);
                  i < |p| && p[i] == Text(query["date"]))
            && (!Blank(query, "category") ==>
                  var i := TotalPlaceholders(Then(Then(s, l), d).conditions);
                  i < |p| && p[i] == Text(query["category"]))
  {
    var s := SearchFilter(query);
    var l := EqualityFilter(query, "location", LOCATION_CONDITION);
    var d := EqualityFilter(query, "date", DATE_CONDITION);
    var c := EqualityFilter(query, "category", CATEGORY_CONDITION);
    SearchBalanced(query);
    LocationPlaceholders();
    DatePlaceholders();
    EqualityBalanced(query, "location", LOCATION_CONDITION);
    EqualityBalanced(query, "date", DATE_CONDITION);
    ThenBalanced(s, l);
    ThenBalanced(Then(s, l), d);
    var p := Filters(query).params;
    assert p == s.params + l.params + d.params + c.params;
    assert |Then(s, l).params| == |s.params| + |l.params|;
  }

  /** With every filter set, the conditions appear in the order search,
      location, date, category, joined by " AND " after "WHERE ". */
  lemma AllFiltersWhereClause(query: Payload)
    requires !Blank(query, "search") && !Blank(query, "location") && !Blank(query, "date") && !Blank(query, "category")
    ensures WhereClause(Filters(query).conditions)
            == "WHERE " + SEARCH_CONDITION + " AND " + LOCATION_CONDITION + " AND " + DATE_CONDITION
               + " AND " + CATEGORY_CONDITION
  {
    var c := Filters(query).conditions;
    assert c == [SEARCH_CONDITION, LOCATION_CONDITION, DATE_CONDITION, CATEGORY_CONDITION];
    assert c[1..][1..][1..] == [CATEGORY_CONDITION];
    assert Join(c[1..][1..], " AND ") == DATE_CONDITION + " AND " + CATEGORY_CONDITION;
    assert Join(c[1..], " AND ") == LOCATION_CONDITION + " AND " + (DATE_CONDITION + " AND " + CATEGORY_CONDITION);
  }

  // ---------------------------------------------------------------------
  // POST: create an event

  const REQUIRED_EVENT_FIELDS: seq<string> :=
    ["title", "description", "category", "location", "venue", "event_date", "event_time"]

  datatype Session = Session(userId: Option<int>, isAdmin: bool)

  /** One element of the request's `ticket_types` array. */
  datatype TicketTypeInput = TicketTypeInput(name: string, price: int, quantityAvailable: int)

  datatype EventRow = EventRow(
    eventId: int, title: string, description: string, category: string, location: string,
    venue: string, organizer: string, eventDate: string, eventTime: string, imagePath: string,
    createdBy: Option<int>)

  datatype TicketTypeRow = TicketTypeRow(ticketTypeId: int, eventId: int, name: string, price: int, quantityAvailable: int)

  /** The `events` and `ticket_types` tables with their auto-increment
      counters. */
  datatype EventsDb = EventsDb(
    events: seq<EventRow>, ticketTypes: seq<TicketTypeRow>, nextEventId: int, nextTicketTypeId: int)

  datatype CreateError = Unauthorized | MissingField(field: string)

  datatype CreateOutcome = CreateOutcome(response: Result<int, CreateError>, db: EventsDb)

  /** The rows inserted for the ticket types, in request order. */
  function TicketTypeRows(eventId: int, firstId: int, inputs: seq<TicketTypeInput>): (r: seq<TicketTypeRow>)
    ensures |r| == |inputs|
    ensures forall i :: 0 <= i < |inputs| ==>
              r[i] == TicketTypeRow(firstId + i, eventId, inputs[i].name, inputs[i].price, inputs[i].quantityAvailable)
    decreases |inputs|
  {
    if |inputs| == 0 then []
    else [TicketTypeRow(firstId, eventId, inputs[0].name, inputs[0].price, inputs[0].quantityAvailable)]
         + TicketTypeRows(eventId, firstId + 1, inputs[1..])
  }

  /** The POST branch. `ticketTypes` is `None` when the request's
      `ticket_types` is absent or not an array. */
  function CreateEvent(session: Session, data: Payload, ticketTypes: Option<seq<TicketTypeInput>>, db: EventsDb)
    : (o: CreateOutcome)
    // Refusals insert nothing; the admin check comes before validation.
    ensures o.response.Err? ==> o.db == db
    ensures o.response == Err(Unauthorized) <==> !session.isAdmin
    ensures session.isAdmin && FirstMissing(REQUIRED_EVENT_FIELDS, data).Some? ==>
              o.response == Err(MissingField(FirstMissing(REQUIRED_EVENT_FIELDS, data).value))
    ensures o.response.Ok? <==> session.isAdmin && FirstMissing(REQUIRED_EVENT_FIELDS, data).None?
    // Success: one event row with the new id and the given fields ...
    ensures o.response.Ok? ==>
              && o.response.value == db.nextEventId
              && o.db.nextEventId == db.nextEventId + 1
              && |o.db.events| == |db.events| + 1
              && o.db.events[..|db.events|] == db.events
              && var e := o.db.events[|db.events|];
                 && e.eventId == db.nextEventId && e.createdBy == session.userId
                 && "title" in data && e.title == data["title"]
                 && "event_date" in data && e.eventDate == data["event_date"]
                 && e.organizer == GetOr(data, "organizer", "")
    // ... and one ticket-type row per element of a non-empty array, each
    // with the next auto-increment id and tagged with the new event id.
    ensures o.response.Ok? ==>
              var inputs := if ticketTypes.Some? then ticketTypes.value else [];
              && o.db.nextTicketTypeId == db.nextTicketTypeId + |inputs|
              && |o.db.ticketTypes| == |db.ticketTypes| + |inputs|
              && o.db.ticketTypes[..|db.ticketTypes|] == db.ticketTypes
              && forall i :: 0 <= i < |inputs| ==>
                   var row := o.db.ticketTypes[|db.ticketTypes| + i];
                   row.ticketTypeId == db.nextTicketTypeId + i
                   && row.eventId == db.nextEventId && row.name == inputs[i].name
                   && row.price == inputs[i].price && row.quantityAvailable == inputs[i].quantityAvailable
  {
    if !session.isAdmin then CreateOutcome(Err(Unauthorized), db)
    else match FirstMissing(REQUIRED_EVENT_FIELDS, data)
      case Some(f) => CreateOutcome(Err(MissingField(f)), db)
      case None =>
        assert !Blank(data, REQUIRED_EVENT_FIELDS[0]) && !Blank(data, REQUIRED_EVENT_FIELDS[1])
               && !Blank(data, REQUIRED_EVENT_FIELDS[2]) && !Blank(data, REQUIRED_EVENT_FIELDS[3])
               && !Blank(data, REQUIRED_EVENT_FIELDS[5]) && !Blank(data, REQUIRED_EVENT_FIELDS[6]);
        var eventId := db.nextEventId;
        var row := EventRow(eventId, data["title"], data["description"], data["category"], data["location"],
                            GetOr(data, "venue", ""), GetOr(data, "organizer", ""),
                            data["event_date"], data["event_time"], GetOr(data, "image_path", ""),
                            session.userId);
        var inputs := if ticketTypes.Some? then ticketTypes.value else [];
        var rows := TicketTypeRows(eventId, db.nextTicketTypeId, inputs);
        CreateOutcome(Ok(eventId),
                      EventsDb(db.events + [row], db.ticketTypes + rows, eventId + 1, db.nextTicketTypeId + |rows|))
  }
  /** The created event row carries every submitted field: the seven required
      ones as given, and `image_path` defaulting to the empty string. */
  lemma CreatedEventFields(session: Session, data: Payload, ticketTypes: Option<seq<TicketTypeInput>>, db: EventsDb)
    requires CreateEvent(session, data, ticketTypes, db).response.Ok?
    ensures var e := CreateEvent(session, data, ticketTypes, db).db.events[|db.events|];
            && "description" in data && e.description == data["description"]
            && "category" in data && e.category == data["category"]
            && "location" in data && e.location == data["location"]
            && "venue" in data && e.venue == data["venue"]
            && "event_time" in data && e.eventTime == data["event_time"]
            && e.imagePath == GetOr(data, "image_path", "")
  {
    assert !Blank(data, REQUIRED_EVENT_FIELDS[1]) && !Blank(data, REQUIRED_EVENT_FIELDS[2])
           && !Blank(data, REQUIRED_EVENT_FIELDS[3]) && !Blank(data, REQUIRED_EVENT_FIELDS[4])
           && !Blank(data, REQUIRED_EVENT_FIELDS[6]);
  }

}

=== FILE: fields.dfy ===
/** Request payloads as decoded JSON objects, and the "first required field
    that is empty" validation used by the checkout and the event-creation
    endpoints. */
module Fields {
  import opened Results

  /** A decoded JSON object whose values are strings. */
  type Payload = map<string, string>

  /** PHP's `empty($data[$field])` for a string value: the key is absent, or
      its value is the empty string or the string "0". */
  predicate Blank(data: Payload, field: string)
  {
    field !in data || data[field] == "" || data[field] == "0"
  }

  /** The value of an optional field, `$data[$field] ?? $default`. */
  function GetOr(data: Payload, field: string, default: string): string
  {
    if field in data then data[field] else default
  }

  /** Walks the required fields in their fixed order and reports the first
      blank one, the way the `foreach ($required as $field)` loops exit on the
      first failure. */
  function FirstMissing(required: seq<string>, data: Payload): (r: Option<string>)
    ensures r.None? <==> forall i :: 0 <= i < |required| ==> !Blank(data, required[i])
    ensures r.Some? ==>
      exists i :: 0 <= i < |required| && required[i] == r.value && Blank(data, required[i])
                  && forall j :: 0 <= j < i ==> !Blank(data, required[j])
  {
    if |required| == 0 then None
    else if Blank(data, required[0]) then Some(required[0])
    else
      var rest := FirstMissing(required[1..], data);
      if rest.Some? then
        ghost var k :| 0 <= k < |required| - 1 && required[1..][k] == rest.value && Blank(data, required[1..][k])
                      && forall j :: 0 <= j < k ==> !Blank(data, required[1..][j]);
        assert required[k + 1] == rest.value;
        rest
      else
        rest
  }
}

=== FILE: findings.dfy ===
/** A negative quantity gets into the session cart and then raises
    inventory at checkout. The cart endpoint tests the quantity only with
    `empty()` (false for -3) and `quantity > available` (false for -3); the
    checkout re-check `available < quantity` is false as well, and the
    decrement by -3 adds three tickets while the booking total drops. */
module Findings {
  import opened Results
  import opened Store
  import opened SessionCart
  import opened CheckoutTransaction
  import opened Fields
  import CheckoutLaws

  const CATALOGUE: Catalogue := map[7 := TicketType(1, "Summer Music Festival", "General Admission", 4500, 1)]
  const NEGATIVE: AddRequest := AddRequest(Some(1), Some(7), Some(-3))
  const PAID: Payload := map["payment_method" := "card", "first_name" := "Ada", "last_name" := "Byron",
                                         "email" := "ada@example.com", "phone" := "555"]

  /** The checkout form used below fills every required field. */
  lemma PaidFormIsComplete()
    ensures FirstMissing(REQUIRED, PAID).None?
  {
    assert !Blank(PAID, REQUIRED[0]) && !Blank(PAID, REQUIRED[1]) && !Blank(PAID, REQUIRED[2])
           && !Blank(PAID, REQUIRED[3]) && !Blank(PAID, REQUIRED[4]);
  }

  /** The cart the as-written endpoint builds from the negative request. */
  const NEGATIVE_CART: Cart := [CartLine(1, "Summer Music Festival", 7, "General Admission", 4500, -3)]

  /** As written: the add succeeds and the session cart holds -3 tickets. */
  lemma NegativeQuantityEntersCart()
    ensures AddAsWritten(NEGATIVE, CATALOGUE, []) == Ok(NEGATIVE_CART)
    ensures HandleAsWritten(true, Post(NEGATIVE), CATALOGUE, []) == CartOutcome(Ok(NEGATIVE_CART), NEGATIVE_CART)
  {
    assert FindLine([], 7) == None;
    assert AddAsWritten(NEGATIVE, CATALOGUE, []).Ok?;
    assert AddAsWritten(NEGATIVE, CATALOGUE, []).value == [] + NEGATIVE_CART;
    assert [] + NEGATIVE_CART == NEGATIVE_CART;
  }

  /** As written: checking that cart out turns one available ticket into
      four and charges a negative total. */
  lemma NegativeQuantityRaisesStock()
    ensures var cart := HandleAsWritten(true, Post(NEGATIVE), CATALOGUE, []).cart;
            var o := Checkout(Some(42), PAID, cart, Db(map[7 := 1], [], [], 1));
            && o.response.Ok?
            && o.db.inventory[7] == 4 > 1
            && o.db.bookings[0].totalAmount < 0
  {
    NegativeQuantityEntersCart();
    PaidFormIsComplete();
    var cart := NEGATIVE_CART;
    assert LineFits(cart, map[7 := 1], 0) by {
      assert cart[..0] == [];
    }
    assert Fits(cart, map[7 := 1]);
    assert Demand(cart, 7) == -3 + Demand(cart[1..], 7);
    assert Subtotal(cart) == -13500 + Subtotal(cart[1..]);
  }

  /** As written, merging -3 into a line of 3 leaves a line of 0 tickets in
      the session cart, so the endpoint does not keep quantities positive. */
  lemma NegativeMergeLeavesEmptyLine()
    ensures var catalogue := map[7 := TicketType(1, "Summer Music Festival", "General Admission", 4500, 3)];
            var cart := [CartLine(1, "Summer Music Festival", 7, "General Admission", 4500, 3)];
            var o := HandleAsWritten(true, Post(NEGATIVE), catalogue, cart);
            && PositiveQuantities(cart)
            && o.response.Ok?
            && o.cart[0].quantity == 0
  {
    var catalogue := map[7 := TicketType(1, "Summer Music Festival", "General Admission", 4500, 3)];
    var cart := [CartLine(1, "Summer Music Festival", 7, "General Admission", 4500, 3)];
    assert FindLine(cart, 7) == Some(0);
  }

  lemma CorrectedAddRefusesNegativeQuantity()
    ensures AddToCart(NEGATIVE, CATALOGUE, []) == Err(InvalidQuantity)
    ensures Handle(true, Post(NEGATIVE), CATALOGUE, []) == CartOutcome(Err(InvalidQuantity), [])
  {
  }

  lemma {:induction false} CorrectedCartNeverRaisesStock(
    loggedIn: bool, req: CartRequest, catalogue: Catalogue, cart: Cart,
    user: Option<int>, data: map<string, string>, db: Db)
    requires PositiveQuantities(cart)
    ensures var c := Handle(loggedIn, req, catalogue, cart).cart;
            forall t :: t in db.inventory ==> Checkout(user, data, c, db).db.inventory[t] <= db.inventory[t]
  {
    var c := Handle(loggedIn, req, catalogue, cart).cart;
    CheckoutLaws.CheckoutNeverRaisesStock(user, data, c, db);
  }
}

=== FILE: listing.dfy ===
/** The browser-side event listing: which slice of the current list a page
    shows, how many pages there are, which page changes are accepted, the
    search / location / date filter, and the admin delete. Dates are integer
    keys; strings are compared after ASCII lower-casing. */
module Listing {
  import opened Results

  const ITEMS_PER_PAGE: int := 6

  datatype Event = Event(id: int, name: string, description: string, location: string, date: int, price: int)

  /** The list being displayed and the current page. */
  datatype View = View(display: seq<Event>, page: int)

  /** A relative index of `Array.prototype.slice`: negative counts from the
      end, and the result is clamped to [0, length]. */
  function Clamp(length: int, x: int): (r: int)
    requires length >= 0
    ensures 0 <= r <= length
    ensures 0 <= x <= length ==> r == x
    ensures x > length ==> r == length
    ensures -length <= x < 0 ==> r == length + x
    ensures x < -length ==> r == 0
  {
    if x < 0 then (if length + x > 0 then length + x else 0)
    else if x > length then length else x
  }

  /** `s.slice(start, end)`. */
  function Slice(s: seq<Event>, start: int, end: int): seq<Event>
  {
    var a, b := Clamp(|s|, start), Clamp(|s|, end);
    if a < b then s[a..b] else []
  }

  /** The events `displayEvents` shows on `page`. */
  function PageItems(events: seq<Event>, page: int): seq<Event>
  {
    Slice(events, (page - 1) * ITEMS_PER_PAGE, page * ITEMS_PER_PAGE)
  }

  /** For a page number from 1 on, the page holds the events whose index is
      in [(page-1)*6, page*6), clipped to the list. */
  lemma PageWindow(events: seq<Event>, page: int)
    requires page >= 1
    ensures var start := (page - 1) * ITEMS_PER_PAGE;
            var r := PageItems(events, page);
            && |r| == (if start >= |events| then 0
                       else if |events| - start < ITEMS_PER_PAGE then |events| - start
                       else ITEMS_PER_PAGE)
            && forall k :: 0 <= k < |r| ==> r[k] == events[start + k]
  {
  }

  /** `Math.ceil(totalItems / ITEMS_PER_PAGE)`. */
  function PageCount(n: nat): (r: nat)
    ensures r == 0 <==> n == 0
    ensures n > 0 ==> (r - 1) * ITEMS_PER_PAGE < n <= r * ITEMS_PER_PAGE
  {
    (n + ITEMS_PER_PAGE - 1) / ITEMS_PER_PAGE
  }

  /** Pagination controls are drawn only when there is more than one page. */
  function ShowsPagination(n: nat): (r: bool)
    ensures r <==> n > ITEMS_PER_PAGE
  {
    PageCount(n) > 1
  }

  /** The click handler: a page is accepted when it is in range and differs
      from the current one; the result is the new current page. */
  function ChangePage(requested: int, current: int, pageCount: int): (r: Option<int>)
    ensures r.Some? <==> 0 < requested <= pageCount && requested != current
    ensures r.Some? ==> r.value == requested
  {
    if requested > 0 && requested <= pageCount && requested != current then Some(requested) else None
  }

  /** A page change is accepted exactly when it moves to another page from 1
      on that shows something. */
  lemma AcceptedPageIsNonEmpty(events: seq<Event>, requested: int, current: int)
    ensures ChangePage(requested, current, PageCount(|events|)).Some? <==>
              requested >= 1 && requested != current && |PageItems(events, requested)| > 0
  {
    if requested >= 1 {
      PageWindow(events, requested);
    }
  }

  /** Page i/6 + 1 shows event i, in position i % 6, and that page is one of
      the numbered ones. */
  lemma EventIsOnItsPage(events: seq<Event>, i: int)
    requires 0 <= i < |events|
    ensures var p := i / ITEMS_PER_PAGE + 1;
            && 1 <= p <= PageCount(|events|)
            && i % ITEMS_PER_PAGE < |PageItems(events, p)|
            && PageItems(events, p)[i % ITEMS_PER_PAGE] == events[i]
  {
    var p := i / ITEMS_PER_PAGE + 1;
    PageWindow(events, p);
  }

  /** The pages from `page` to the last one, concatenated. */
  function PagesFrom(events: seq<Event>, page: int): seq<Event>
    requires page >= 1
    decreases |events| - (page - 1) * ITEMS_PER_PAGE
  {
    if (page - 1) * ITEMS_PER_PAGE >= |events| then []
    else PageItems(events, page) + PagesFrom(events, page + 1)
  }

  /** Reading the pages in order gives back the whole list: no event is
      skipped or shown twice. */
  lemma {:induction false} PagesTileTheList(events: seq<Event>, page: int)
    requires page >= 1
    ensures (page - 1) * ITEMS_PER_PAGE <= |events| ==> PagesFrom(events, page) == events[(page - 1) * ITEMS_PER_PAGE..]
    decreases |events| - (page - 1) * ITEMS_PER_PAGE
  {
    var start := (page - 1) * ITEMS_PER_PAGE;
    if start < |events| {
      PageWindow(events, page);
      PagesTileTheList(events, page + 1);
      if page * ITEMS_PER_PAGE <= |events| {
        assert events[start..] == events[start..page * ITEMS_PER_PAGE] + events[page * ITEMS_PER_PAGE..];
      } else {
        assert PagesFrom(events, page + 1) == [];
      }
    }
  }

  /** The order-preserving `Array.prototype.filter`. */
  function Select(events: seq<Event>, keep: Event -> bool): (r: seq<Event>)
    ensures forall e :: e in r <==> e in events && keep(e)
    ensures forall i :: 0 <= i < |r| ==> keep(r[i])
    ensures |r| <= |events|
    decreases |events|
  {
    if |events| == 0 then []
    else if keep(events[0]) then [events[0]] + Select(events[1..], keep)
    else Select(events[1..], keep)
  }

  /** Filtering a concatenation concatenates the filtered parts, so the
      survivors keep their relative order. */
  lemma {:induction false} SelectAppend(a: seq<Event>, b: seq<Event>, keep: Event -> bool)
    ensures Select(a + b, keep) == Select(a, keep) + Select(b, keep)
    decreases |a|
  {
    if |a| == 0 {
      assert a + b == b;
    } else {
      assert (a + b)[0] == a[0];
      assert (a + b)[1..] == a[1..] + b;
      SelectAppend(a[1..], b, keep);
    }
  }

  /** A filter every event passes changes nothing. */
  lemma {:induction false} SelectAll(events: seq<Event>, keep: Event -> bool)
    requires forall i :: 0 <= i < |events| ==> keep(events[i])
    ensures Select(events, keep) == events
    decreases |events|
  {
    if |events| > 0 {
      SelectAll(events[1..], keep);
      assert [events[0]] + events[1..] == events;
    }
  }

  /** `toLowerCase` on ASCII letters. */
  function LowerChar(c: char): char
  {
    if 'A' <= c <= 'Z' then (c as int + 32) as char else c
  }

  predicate IsUpper(c: char)
  {
    'A' <= c <= 'Z'
  }

  /** Lower-casing leaves no upper-case letter, moves each upper-case letter
      to its lower-case partner, and leaves text without upper-case letters
      as it is. */
  function Lower(s: string): (r: string)
    ensures |r| == |s|
    ensures forall i :: 0 <= i < |r| ==> !IsUpper(r[i])
    ensures forall i :: 0 <= i < |s| && IsUpper(s[i]) ==> 'a' <= r[i] <= 'z' && r[i] as int - s[i] as int == 32
    ensures forall i :: 0 <= i < |s| && !IsUpper(s[i]) ==> r[i] == s[i]
    ensures r == s <==> forall i :: 0 <= i < |s| ==> !IsUpper(s[i])
  {
    var r := seq(|s|, i requires 0 <= i < |s| => LowerChar(s[i]));
    assert (forall i :: 0 <= i < |s| ==> !IsUpper(s[i])) ==> r == s;
    assert r == s ==> forall i :: 0 <= i < |s| ==> !IsUpper(s[i]) by {
      if r == s {
        forall i | 0 <= i < |s|
          ensures !IsUpper(s[i])
        {
          assert !IsUpper(r[i]);
        }
      }
    }
    r
  }

  /** Lower-casing twice is lower-casing once. */
  lemma LowerIdempotent(s: string)
    ensures Lower(Lower(s)) == Lower(s)
  {
  }

  /** `needle` occurs in `haystack` starting at index `i`. */
  predicate OccursAt(haystack: string, needle: string, i: int)
  {
    0 <= i && i + |needle| <= |haystack| && haystack[i..i + |needle|] == needle
  }

  /** `haystack.includes(needle)`. */
  function Contains(haystack: string, needle: string): (r: bool)
    ensures r <==> exists i :: OccursAt(haystack, needle, i)
    decreases |haystack|
  {
    if |needle| > |haystack| then false
    else if haystack[..|needle|] == needle then
      assert OccursAt(haystack, needle, 0);
      true
    else
      var r := Contains(haystack[1..], needle);
      assert forall i :: OccursAt(haystack, needle, i) && i > 0 ==> OccursAt(haystack[1..], needle, i - 1);
      assert forall i :: OccursAt(haystack[1..], needle, i) ==> OccursAt(haystack, needle, i + 1);
      r
  }

  /** The filter's predicate: the search term (already lower-cased) occurs in
      the lower-cased name or description, and the location and date match
      when those filters are set (an empty location, an absent date means
      unset). */
  predicate Matches(e: Event, term: string, location: string, date: Option<int>)
  {
    && (Contains(Lower(e.name), term) || Contains(Lower(e.description), term))
    && (location == "" || e.location == location)
    && (date.None? || e.date == date.value)
  }

  /** The callback `filterAndDisplayEvents` hands to `filter`. */
  function Matching(search: string, location: string, date: Option<int>): Event -> bool
  {
    (e: Event) => Matches(e, Lower(search), location, date)
  }

  /** `filterAndDisplayEvents`: filters the full event list, keeping order
      and repetitions, and goes back to page 1. */
  function FilterEvents(events: seq<Event>, search: string, location: string, date: Option<int>): (v: View)
    ensures v.page == 1
    ensures v.display == Select(events, Matching(search, location, date))
    ensures forall e :: e in v.display <==> e in events && Matches(e, Lower(search), location, date)
  {
    View(Select(events, Matching(search, location, date)), 1)
  }

  /** An empty search with no location and no date keeps every event. */
  lemma EmptyFilterKeepsAll(events: seq<Event>)
    ensures FilterEvents(events, "", "", None).display == events
  {
    assert Lower("") == "";
    forall i | 0 <= i < |events|
      ensures Matches(events[i], "", "", None)
    {
      assert OccursAt(Lower(events[i].name), "", 0);
    }
    SelectAll(events, Matching("", "", None));
  }

  /** The first index whose event has this id (`findIndex`). */
  function FindEvent(events: seq<Event>, id: int): (r: Option<int>)
    ensures r.Some? ==> 0 <= r.value < |events| && events[r.value].id == id
                        && forall j :: 0 <= j < r.value ==> events[j].id != id
    ensures r.None? <==> forall j :: 0 <= j < |events| ==> events[j].id != id
    decreases |events|
  {
    if |events| == 0 then None
    else if events[0].id == id then Some(0)
    else
      match FindEvent(events[1..], id)
      case None => None
      case Some(k) => Some(k + 1)
  }

  /** `deleteEventFromAdmin` once confirmed: when the id is in the full list,
      its first occurrence is spliced out of the full list and every event
      with that id is filtered out of the displayed list; otherwise nothing
      changes. Returns (full list, displayed list). */
  function DeleteEvent(all: seq<Event>, display: seq<Event>, id: int): (r: (seq<Event>, seq<Event>))
    ensures FindEvent(all, id).None? ==> r == (all, display)
    ensures FindEvent(all, id).Some? ==>
              var i := FindEvent(all, id).value;
              && r.0 == all[..i] + all[i + 1..]
              && r.1 == Select(display, OtherId(id))
              && (forall e :: e in r.1 <==> e in display && e.id != id)
  {
    match FindEvent(all, id)
    case None => (all, display)
    case Some(i) => (all[..i] + all[i + 1..], Select(display, OtherId(id)))
  }

  /** The callback the admin delete hands to `filter`. */
  function OtherId(id: int): Event -> bool
  {
    (e: Event) => e.id != id
  }
}

=== FILE: results.dfy ===
/** Failure-carrying values shared by every module of the model: the HTTP
    error responses of the PHP endpoints and the thrown exceptions of the
    checkout transaction become `Err` values. */
module Results {

  datatype Option<+T> = None | Some(value: T)

  datatype Result<+T, +E> = Ok(value: T) | Err(error: E)
}

=== FILE: session_cart.dfy ===
/** The session cart endpoint: GET reads the cart, POST adds a ticket type
    to it (merging with an existing line for the same ticket type), DELETE
    removes a ticket type. The availability check made here is advisory; the
    authoritative one happens at checkout. */
module SessionCart {
  import opened Results
  import opened Store

  /** A `ticket_types` row joined with its event's title. */
  datatype TicketType = TicketType(eventId: int, eventTitle: string, name: string, price: int, available: int)

  /** ticket_type_id -> row. */
  type Catalogue = map<int, TicketType>

  /** The decoded POST body; an absent key is `None`. */
  datatype AddRequest = AddRequest(eventId: Option<int>, ticketTypeId: Option<int>, quantity: Option<int>)

  datatype CartRequest =
    | Get
    | Post(add: AddRequest)
    | Delete(ticketTypeId: Option<int>)
    | OtherMethod

  datatype CartError =
    | AuthenticationRequired    // 401
    | MissingRequiredFields     // 400
    | TicketTypeNotFound        // 404
    | NotEnoughTickets          // 400, the request alone exceeds availability
    | TotalExceedsAvailable     // 400, the merged line would exceed availability
    | InvalidQuantity           // 400, a negative quantity (see AddToCart)
    | TicketTypeIdRequired      // 400
    | MethodNotAllowed          // 405

  /** The response and the session cart after the request. On success the
      response carries the cart. */
  datatype CartOutcome = CartOutcome(response: Result<Cart, CartError>, cart: Cart)

  /** PHP's `empty()` on an integer field: absent or zero. */
  predicate IntBlank(v: Option<int>)
  {
    v.None? || v.value == 0
  }

  predicate AnyBlank(req: AddRequest)
  {
    IntBlank(req.eventId) || IntBlank(req.ticketTypeId) || IntBlank(req.quantity)
  }

  /** The index of the first line for ticket type `t`, as the `foreach` with
      `break` finds it. */
  function FindLine(cart: Cart, t: int): (r: Option<int>)
    ensures r.Some? ==> 0 <= r.value < |cart| && cart[r.value].ticketTypeId == t
                        && forall j :: 0 <= j < r.value ==> cart[j].ticketTypeId != t
    ensures r.None? <==> forall j :: 0 <= j < |cart| ==> cart[j].ticketTypeId != t
    decreases |cart|
  {
    if |cart| == 0 then None
    else if cart[0].ticketTypeId == t then Some(0)
    else
      match FindLine(cart[1..], t)
      case None => None
      case Some(k) => Some(k + 1)
  }

  /** POST exactly as written. The quantity is only tested for being
      non-empty and not above availability, so a negative quantity passes. */
  function AddAsWritten(req: AddRequest, catalogue: Catalogue, cart: Cart): (r: Result<Cart, CartError>)
    ensures r == Err(MissingRequiredFields) <==> AnyBlank(req)
    ensures r == Err(TicketTypeNotFound) <==>
              !AnyBlank(req) && (req.ticketTypeId.value !in catalogue
                                 || catalogue[req.ticketTypeId.value].eventId != req.eventId.value)
    ensures r == Err(NotEnoughTickets) <==>
              !AnyBlank(req) && req.ticketTypeId.value in catalogue
              && catalogue[req.ticketTypeId.value].eventId == req.eventId.value
              && req.quantity.value > catalogue[req.ticketTypeId.value].available
    ensures r == Err(TotalExceedsAvailable) <==>
              !AnyBlank(req) && req.ticketTypeId.value in catalogue
              && catalogue[req.ticketTypeId.value].eventId == req.eventId.value
              && req.quantity.value <= catalogue[req.ticketTypeId.value].available
              && FindLine(cart, req.ticketTypeId.value).Some?
              && cart[FindLine(cart, req.ticketTypeId.value).value].quantity + req.quantity.value
                 > catalogue[req.ticketTypeId.value].available
    ensures r.Err? ==> r.error != InvalidQuantity && r.error != TicketTypeIdRequired
                       && r.error != AuthenticationRequired && r.error != MethodNotAllowed
    // Merge: the existing line's quantity grows, every other line and every
    // other field stays as it was.
    ensures r.Ok? && FindLine(cart, req.ticketTypeId.value).Some? ==>
              var i := FindLine(cart, req.ticketTypeId.value).value;
              && |r.value| == |cart|
              && r.value[i] == cart[i].(quantity := cart[i].quantity + req.quantity.value)
              && r.value[i].quantity <= catalogue[req.ticketTypeId.value].available
              && forall j :: 0 <= j < |cart| && j != i ==> r.value[j] == cart[j]
    // Append: a new last line whose name and price come from the catalogue.
    ensures r.Ok? && FindLine(cart, req.ticketTypeId.value).None? ==>
              var row := catalogue[req.ticketTypeId.value];
              && req.quantity.value <= row.available
              && r.value == cart + [CartLine(req.eventId.value, row.eventTitle, req.ticketTypeId.value,
                                             row.name, row.price, req.quantity.value)]
    // Either way the cart asks for `quantity` more of that ticket type and
    // the same amount of every other.
    ensures r.Ok? ==> forall t :: Demand(r.value, t)
                                  == Demand(cart, t) + (if t == req.ticketTypeId.value then req.quantity.value else 0)
    ensures r.Ok? && UniqueTicketTypes(cart) ==> UniqueTicketTypes(r.value)
  {
    if AnyBlank(req) then Err(MissingRequiredFields)
    else
      var eventId, ticketTypeId, quantity := req.eventId.value, req.ticketTypeId.value, req.quantity.value;
      if ticketTypeId !in catalogue || catalogue[ticketTypeId].eventId != eventId then Err(TicketTypeNotFound)
      else
        var row := catalogue[ticketTypeId];
        if quantity > row.available then Err(NotEnoughTickets)
        else match FindLine(cart, ticketTypeId)
          case Some(i) =>
            var merged := cart[i].quantity + quantity;
            if merged > row.available then Err(TotalExceedsAvailable)
            else
              var line := cart[i].(quantity := merged);
              assert forall t :: Demand(cart[i := line], t)
                                 == Demand(cart, t) + (if t == ticketTypeId then quantity else 0) by {
                forall t ensures Demand(cart[i := line], t)
                                 == Demand(cart, t) + (if t == ticketTypeId then quantity else 0) {
                  DemandUpdate(cart, i, line, t);
                }
              }
              Ok(cart[i := line])
          case None =>
            var line := CartLine(eventId, row.eventTitle, ticketTypeId, row.name, row.price, quantity);
            assert forall t :: Demand(cart + [line], t)
                               == Demand(cart, t) + (if t == ticketTypeId then quantity else 0) by {
              forall t ensures Demand(cart + [line], t)
                               == Demand(cart, t) + (if t == ticketTypeId then quantity else 0) {
                DemandAppend(cart, [line], t);
                assert Demand([line], t) == (if t == ticketTypeId then quantity else 0) + Demand([line][1..], t);
              }
            }
            Ok(cart + [line])
  }

  /** POST with the quantity check the endpoint evidently intends: once the
      fields are present, a negative quantity is refused. Otherwise it is
      exactly AddAsWritten. */
  function AddToCart(req: AddRequest, catalogue: Catalogue, cart: Cart): (r: Result<Cart, CartError>)
    ensures r == Err(InvalidQuantity) <==> !AnyBlank(req) && req.quantity.value < 0
    ensures r != Err(InvalidQuantity) ==> r == AddAsWritten(req, catalogue, cart)
    ensures r.Ok? ==> req.quantity.Some? && req.quantity.value > 0
    ensures r.Ok? && PositiveQuantities(cart) ==> PositiveQuantities(r.value)
  {
    if !AnyBlank(req) && req.quantity.value < 0 then Err(InvalidQuantity)
    else AddAsWritten(req, catalogue, cart)
  }

  /** `array_filter` keeping the lines whose ticket type differs from `t`,
      followed by `array_values`: order kept, indices renumbered. */
  function Without(cart: Cart, t: int): (r: Cart)
    ensures forall i :: 0 <= i < |r| ==> r[i].ticketTypeId != t
    ensures forall l :: l in r <==> l in cart && l.ticketTypeId != t
    ensures |r| <= |cart|
    decreases |cart|
  {
    if |cart| == 0 then []
    else if cart[0].ticketTypeId == t then Without(cart[1..], t)
    else [cart[0]] + Without(cart[1..], t)
  }

  /** DELETE: a blank id is refused, otherwise every line for that ticket
      type goes. */
  function RemoveFromCart(ticketTypeId: Option<int>, cart: Cart): (r: Result<Cart, CartError>)
    ensures r.Err? <==> IntBlank(ticketTypeId)
    ensures r.Err? ==> r.error == TicketTypeIdRequired
    ensures r.Ok? ==> r.value == Without(cart, ticketTypeId.value)
    ensures r.Ok? ==> forall t :: Demand(r.value, t) == (if t == ticketTypeId.value then 0 else Demand(cart, t))
    ensures r.Ok? && UniqueTicketTypes(cart) ==> UniqueTicketTypes(r.value)
    ensures r.Ok? && PositiveQuantities(cart) ==> PositiveQuantities(r.value)
  {
    if IntBlank(ticketTypeId) then Err(TicketTypeIdRequired)
    else
      var t := ticketTypeId.value;
      WithoutDemand(cart, t);
      WithoutKeepsUnique(cart, t);
      WithoutKeepsPositive(cart, t);
      Ok(Without(cart, t))
  }

  /** Removing a ticket type zeroes its demand and keeps every other's. */
  lemma {:induction false} WithoutDemand(cart: Cart, t: int)
    ensures forall u :: Demand(Without(cart, t), u) == (if u == t then 0 else Demand(cart, u))
    decreases |cart|
  {
    if |cart| > 0 {
      WithoutDemand(cart[1..], t);
      if cart[0].ticketTypeId != t {
        var rest := Without(cart[1..], t);
        assert ([cart[0]] + rest)[1..] == rest;
      }
    }
  }

  /** The filter keeps the surviving lines in their original relative order:
      filtering a concatenation concatenates the filtered parts. */
  lemma {:induction false} WithoutAppend(a: Cart, b: Cart, t: int)
    ensures Without(a + b, t) == Without(a, t) + Without(b, t)
    decreases |a|
  {
    if |a| == 0 {
      assert a + b == b;
    } else {
      assert (a + b)[0] == a[0];
      assert (a + b)[1..] == a[1..] + b;
      WithoutAppend(a[1..], b, t);
    }
  }

  /** Removing an absent ticket type is a no-op. */
  lemma {:induction false} WithoutAbsent(cart: Cart, t: int)
    requires forall i :: 0 <= i < |cart| ==> cart[i].ticketTypeId != t
    ensures Without(cart, t) == cart
    decreases |cart|
  {
    if |cart| > 0 {
      WithoutAbsent(cart[1..], t);
      assert [cart[0]] + cart[1..] == cart;
    }
  }

  /** The survivors of the filter still have distinct ticket types when the
      original lines did. */
  lemma {:induction false} WithoutKeepsUnique(cart: Cart, t: int)
    ensures UniqueTicketTypes(cart) ==> UniqueTicketTypes(Without(cart, t))
    decreases |cart|
  {
    if |cart| > 0 && UniqueTicketTypes(cart) {
      var rest := Without(cart[1..], t);
      assert UniqueTicketTypes(cart[1..]);
      WithoutKeepsUnique(cart[1..], t);
      if cart[0].ticketTypeId != t {
        var r := [cart[0]] + rest;
        forall i, j | 0 <= i < j < |r|
          ensures r[i].ticketTypeId != r[j].ticketTypeId
        {
          if i == 0 {
            assert r[j] in cart[1..];
            var k :| 0 <= k < |cart| - 1 && cart[1..][k] == r[j];
            assert cart[k + 1] == r[j];
          } else {
            assert r[i] == rest[i - 1] && r[j] == rest[j - 1];
          }
        }
      }
    }
  }

  /** The survivors of the filter still have positive quantities when the
      original lines did. */
  lemma WithoutKeepsPositive(cart: Cart, t: int)
    ensures PositiveQuantities(cart) ==> PositiveQuantities(Without(cart, t))
  {
    if PositiveQuantities(cart) {
      var r := Without(cart, t);
      forall i | 0 <= i < |r|
        ensures r[i].quantity > 0
      {
        assert r[i] in cart;
      }
    }
  }

  /** One request against the session cart, as the endpoint is written: a
      POST goes through `AddAsWritten`, so a negative quantity is accepted
      and positive quantities are not kept (see the Findings module). */
  function HandleAsWritten(loggedIn: bool, req: CartRequest, catalogue: Catalogue, cart: Cart): (o: CartOutcome)
    ensures !loggedIn ==> o == CartOutcome(Err(AuthenticationRequired), cart)
    ensures o.response.Err? ==> o.cart == cart
    ensures o.response.Ok? ==> o.response.value == o.cart
    ensures loggedIn && req.Get? ==> o == CartOutcome(Ok(cart), cart)
    ensures loggedIn && req.OtherMethod? ==> o == CartOutcome(Err(MethodNotAllowed), cart)
    // POST answers with the unchecked add, DELETE with the filter.
    ensures loggedIn && req.Post? ==> o.response == AddAsWritten(req.add, catalogue, cart)
    ensures loggedIn && req.Delete? ==> o.response == RemoveFromCart(req.ticketTypeId, cart)
    // A successful DELETE empties the ticket type and keeps every other.
    ensures loggedIn && req.Delete? && req.ticketTypeId.Some? && o.response.Ok? ==>
              forall t :: Demand(o.cart, t) == (if t == req.ticketTypeId.value then 0 else Demand(cart, t))
    ensures UniqueTicketTypes(cart) ==> UniqueTicketTypes(o.cart)
  {
    if !loggedIn then CartOutcome(Err(AuthenticationRequired), cart)
    else
      var response := match req
        case Get => Ok(cart)
        case Post(add) => AddAsWritten(add, catalogue, cart)
        case Delete(t) => RemoveFromCart(t, cart)
        case OtherMethod => Err(MethodNotAllowed);
      CartOutcome(response, if response.Ok? then response.value else cart)
  }

  /** The corrected endpoint: the same as `HandleAsWritten` except that a
      POST with a negative quantity is refused (see `AddToCart`). */
  function Handle(loggedIn: bool, req: CartRequest, catalogue: Catalogue, cart: Cart): (o: CartOutcome)
    ensures !loggedIn ==> o == CartOutcome(Err(AuthenticationRequired), cart)
    ensures o.response.Err? ==> o.cart == cart
    ensures o.response.Ok? ==> o.response.value == o.cart
    // GET never mutates; an unknown method is refused.
    ensures loggedIn && req.Get? ==> o == CartOutcome(Ok(cart), cart)
    ensures loggedIn && req.OtherMethod? ==> o == CartOutcome(Err(MethodNotAllowed), cart)
    // POST answers with the corrected add, DELETE with the filter.
    ensures loggedIn && req.Post? ==> o.response == AddToCart(req.add, catalogue, cart)
    ensures loggedIn && req.Delete? ==> o.response == RemoveFromCart(req.ticketTypeId, cart)
    // The session cart keeps one line per ticket type and positive quantities.
    ensures UniqueTicketTypes(cart) ==> UniqueTicketTypes(o.cart)
    ensures PositiveQuantities(cart) ==> PositiveQuantities(o.cart)
  {
    if !loggedIn then CartOutcome(Err(AuthenticationRequired), cart)
    else
      var response := match req
        case Get => Ok(cart)
        case Post(add) => AddToCart(add, catalogue, cart)
        case Delete(t) => RemoveFromCart(t, cart)
        case OtherMethod => Err(MethodNotAllowed);
      CartOutcome(response, if response.Ok? then response.value else cart)
  }

  /** The corrected endpoint differs from the endpoint as written only on a
      POST whose fields are all present and whose quantity is negative. */
  lemma HandleAgreesWithAsWritten(loggedIn: bool, req: CartRequest, catalogue: Catalogue, cart: Cart)
    ensures Handle(loggedIn, req, catalogue, cart) != HandleAsWritten(loggedIn, req, catalogue, cart) <==>
              loggedIn && req.Post? && !AnyBlank(req.add) && req.add.quantity.value < 0
  {
    if loggedIn && req.Post? && !AnyBlank(req.add) && req.add.quantity.value < 0 {
      assert AddAsWritten(req.add, catalogue, cart) != Err(InvalidQuantity);
    }
  }
}

=== FILE: sql_text.dfy ===
/** The SQL fragments the event listing assembles, and the count of `?`
    placeholders in them. */
module SqlText {

  // The WHERE conditions, spelled with each placeholder as its own piece:
  // "(title LIKE ? OR description LIKE ?)", "location = ?", and so on.
  const SEARCH_CONDITION: string := "(title LIKE " + "?" + " OR description LIKE " + "?" + ")"
  const LOCATION_CONDITION: string := "location = " + "?"
  const DATE_CONDITION: string := "event_date = " + "?"
  const CATEGORY_CONDITION: string := "category = " + "?"

  /** Number of `?` placeholders in a piece of SQL. */
  function Placeholders(sql: string): nat
  {
    multiset(sql)['?']
  }

  lemma NoPlaceholders(sql: string)
    requires '?' !in sql
    ensures Placeholders(sql) == 0
  {
  }

  lemma PlaceholdersAppend(a: string, b: string)
    ensures Placeholders(a + b) == Placeholders(a) + Placeholders(b)
  {
    assert multiset(a + b) == multiset(a) + multiset(b);
  }

  lemma QuestionMark()
    ensures Placeholders("?") == 1
  {
  }

  /** A condition of the form `<column> = ?` binds one value. */
  lemma EqualityPlaceholders(column: string)
    requires '?' !in column
    ensures Placeholders(column + "?") == 1
  {
    QuestionMark();
    NoPlaceholders(column);
    PlaceholdersAppend(column, "?");
  }

  lemma TitlePiece()
    ensures Placeholders("(title LIKE ") == 0
  {
    NoPlaceholders("(title LIKE ");
  }

  lemma DescriptionPiece()
    ensures Placeholders(" OR description LIKE ") == 0
  {
    NoPlaceholders(" OR description LIKE ");
  }

  lemma ClosingPiece()
    ensures Placeholders(")") == 0
  {
    NoPlaceholders(")");
  }

  /** The search condition binds two values. */
  lemma SearchPlaceholders()
    ensures Placeholders(SEARCH_CONDITION) == 2
  {
    var a, q, b, c := "(title LIKE ", "?", " OR description LIKE ", ")";
    TitlePiece();
    DescriptionPiece();
    ClosingPiece();
    QuestionMark();
    PlaceholdersAppend(a, q);
    PlaceholdersAppend(a + q, b);
    PlaceholdersAppend(a + q + b, q);
    PlaceholdersAppend(a + q + b + q, c);
  }

  lemma LocationPlaceholders()
    ensures Placeholders(LOCATION_CONDITION) == 1
  {
    EqualityPlaceholders("location = ");
  }

  lemma DatePlaceholders()
    ensures Placeholders(DATE_CONDITION) == 1
  {
    EqualityPlaceholders("event_date = ");
  }

  lemma CategoryPlaceholders()
    ensures Placeholders(CATEGORY_CONDITION) == 1
  {
    EqualityPlaceholders("category = ");
  }

  /** The search condition binds two values, the others one each. */
  lemma ConditionPlaceholders()
    ensures Placeholders(SEARCH_CONDITION) == 2
    ensures Placeholders(LOCATION_CONDITION) == 1
    ensures Placeholders(DATE_CONDITION) == 1
    ensures Placeholders(CATEGORY_CONDITION) == 1
  {
    SearchPlaceholders();
    LocationPlaceholders();
    DatePlaceholders();
    CategoryPlaceholders();
  }
}

=== FILE: store.dfy ===
/** The database rows and session values the checkout transaction works on:
    cart lines, the `ticket_types.quantity_available` column as an inventory
    map, and the `bookings` / `booked_tickets` tables. Prices are integer
    cents. */
module Store {

  /** `SERVICE_FEE` (2.50) in cents. */
  const SERVICE_FEE: int := 250

  /** One line of the session cart built by the cart endpoint. */
  datatype CartLine = CartLine(
    eventId: int,
    eventTitle: string,
    ticketTypeId: int,
    ticketName: string,
    price: int,
    quantity: int)

  type Cart = seq<CartLine>

  /** ticket_type_id -> quantity_available. */
  type Inventory = map<int, int>

  datatype Booking = Booking(
    bookingId: int,
    userId: int,
    eventId: int,
    totalAmount: int,
    paymentStatus: string,
    paymentMethod: string)

  datatype BookedTicket = BookedTicket(bookingId: int, ticketTypeId: int, quantity: int, price: int)

  /** The tables the checkout touches; `nextBookingId` is the auto-increment
      value the next inserted booking receives. */
  datatype Db = Db(
    inventory: Inventory,
    bookings: seq<Booking>,
    bookedTickets: seq<BookedTicket>,
    nextBookingId: int)

  /** Sum of price * quantity over the lines. */
  function Subtotal(cart: Cart): int
  {
    if |cart| == 0 then 0 else cart[0].price * cart[0].quantity + Subtotal(cart[1..])
  }

  /** Total quantity the lines ask for ticket type `t`. */
  function Demand(cart: Cart, t: int): int
  {
    if |cart| == 0 then 0
    else (if cart[0].ticketTypeId == t then cart[0].quantity else 0) + Demand(cart[1..], t)
  }

  /** Total quantity recorded in booked-ticket rows for ticket type `t`. */
  function BookedQuantity(rows: seq<BookedTicket>, t: int): int
  {
    if |rows| == 0 then 0
    else (if rows[0].ticketTypeId == t then rows[0].quantity else 0) + BookedQuantity(rows[1..], t)
  }

  /** Every line asks for at least one ticket. */
  predicate PositiveQuantities(cart: Cart)
  {
    forall i :: 0 <= i < |cart| ==> cart[i].quantity > 0
  }

  /** At most one line per ticket type. */
  predicate UniqueTicketTypes(cart: Cart)
  {
    forall i, j :: 0 <= i < j < |cart| ==> cart[i].ticketTypeId != cart[j].ticketTypeId
  }

  /** Every ticket type's availability is non-negative. */
  predicate NonNegative(inv: Inventory)
  {
    forall t :: t in inv ==> inv[t] >= 0
  }

  /** Splitting the cart anywhere splits the subtotal. */
  lemma {:induction false} SubtotalAppend(a: Cart, b: Cart)
    ensures Subtotal(a + b) == Subtotal(a) + Subtotal(b)
    decreases |a|
  {
    if |a| == 0 {
      assert a + b == b;
    } else {
      assert (a + b)[1..] == a[1..] + b;
      SubtotalAppend(a[1..], b);
    }
  }

  lemma {:induction false} DemandAppend(a: Cart, b: Cart, t: int)
    ensures Demand(a + b, t) == Demand(a, t) + Demand(b, t)
    decreases |a|
  {
    if |a| == 0 {
      assert a + b == b;
    } else {
      assert (a + b)[1..] == a[1..] + b;
      DemandAppend(a[1..], b, t);
    }
  }

  lemma {:induction false} BookedQuantityAppend(a: seq<BookedTicket>, b: seq<BookedTicket>, t: int)
    ensures BookedQuantity(a + b, t) == BookedQuantity(a, t) + BookedQuantity(b, t)
    decreases |a|
  {
    if |a| == 0 {
      assert a + b == b;
    } else {
      assert (a + b)[1..] == a[1..] + b;
      BookedQuantityAppend(a[1..], b, t);
    }
  }

  /** A ticket type no line names has no demand. */
  lemma {:induction false} DemandAbsent(cart: Cart, t: int)
    requires forall i :: 0 <= i < |cart| ==> cart[i].ticketTypeId != t
    ensures Demand(cart, t) == 0
    decreases |cart|
  {
    if |cart| > 0 {
      DemandAbsent(cart[1..], t);
    }
  }

  /** With positive quantities the demand for a named ticket type is at least
      the quantity of any line naming it, and never negative. */
  lemma {:induction false} DemandBounds(cart: Cart, t: int)
    requires PositiveQuantities(cart)
    ensures Demand(cart, t) >= 0
    ensures forall i :: 0 <= i < |cart| && cart[i].ticketTypeId == t ==> Demand(cart, t) >= cart[i].quantity
    decreases |cart|
  {
    if |cart| > 0 {
      DemandBounds(cart[1..], t);
      forall i | 0 < i < |cart| && cart[i].ticketTypeId == t
        ensures Demand(cart, t) >= cart[i].quantity
      {
        assert cart[1..][i - 1] == cart[i];
      }
    }
  }

  /** Replacing one line changes the demand by the difference of the two lines. */
  lemma {:induction false} DemandUpdate(cart: Cart, i: int, x: CartLine, t: int)
    requires 0 <= i < |cart|
    ensures Demand(cart[i := x], t)
            == Demand(cart, t) - (if cart[i].ticketTypeId == t then cart[i].quantity else 0)
               + (if x.ticketTypeId == t then x.quantity else 0)
    decreases i
  {
    if i > 0 {
      assert cart[i := x][1..] == cart[1..][i - 1 := x];
      DemandUpdate(cart[1..], i - 1, x, t);
    }
  }
}
